=== FILE: README.md ===
# Lumenize self-assessment core, in Dafny

Lumenize is a small mobile app in which an employee picks some of eight
workplace qualities, rates each on a 1..5 scale with a written motivation,
and submits the answers into their profile. The company screen shows the
average rating per quality over all members of all teams. All data lives in
an in-memory store seeded at start-up.

This project models the logic of that app as immutable datatypes and pure
functions, and proves what the code promises about them:

- `Types` holds the entities: the closed enumeration of quality tags, the
  1..5 rating scale, assessments, users, teams, the company and the
  questionnaire state.
- `Qualities` holds the fixed catalog, lookup by string id and the rating
  labels.
- `MockStore` holds the seeded users, team membership derived by filtering
  on `teamId`, the company, and `updateUserQualities`.
- `Questionnaire` holds the session state machine: select, update the
  current draft, next, previous, the "last" test, the current draft, the
  replace-or-append merge done at submission, and reset.
- `Aggregation` holds `calculateCompanyAverages` in exact integer
  half-units, and the member tally under the company name.
- `Selection` holds the checklist toggle and the continue gate.
- `RatingForm` holds the rating screen: initial values, the motivation
  gate with JavaScript `trim` and UTF-16 `length`, the button dispatch, the
  stars and the "Previous" button.
- `Submission` holds one press of the primary button end to end, in two
  forms: as the app wires it, and corrected.
- `Sums` is a generic weighted sum used by every count and total. `Text`
  holds the string primitives: decimal rendering, `trim` and UTF-16 length.

The screen switch in `renderContent` (app/(tabs)/questionnaire.tsx:43-66) is `Questionnaire.PhaseOf`. Its contract states that the completion screen shows exactly when the session is complete, and the selection screen exactly when it is not complete and nothing is selected. Otherwise it shows the rating form for the quality under the cursor.

Clock reads are parameters: `today` stands for `new Date()` rendered as a
date. There is no I/O anywhere in the core.

An aggregated rating is represented as `halfUnits`, which is twice the
displayed value. The source computes `Math.round(total / count * 2) / 2`.
The model states this exactly: `halfUnits` is the integer `h` with
`-count <= 4*total - 2*count*h < count`, which is the nearest half with ties
rounding upward. It is 6, the neutral 3, when nothing was rated.

## Model

| member | source | states |
|---|---|---|
| Qualities.CatalogWellFormed | data/qualities.ts:4-53 | the catalog has eight entries with pairwise distinct ids, and every quality tag has an entry |
| Qualities.CatalogIndex | data/qualities.ts:4-53 | every tag sits at a catalog position whose entry carries that tag |
| Qualities.TagNameInjective | types/index.ts:24-32 | distinct tags have distinct string spellings, so a string id names at most one quality |
| Qualities.FindByTag | data/qualities.ts:56 | `find` returns an entry of the list with the requested id, sitting at a position before which no entry has that id; it returns nothing exactly when no entry has the id |
| Qualities.GetQualityById | data/qualities.ts:55-57 | the result is a catalog entry spelled `id`; the result is undefined exactly when no tag is spelled `id` |
| Qualities.GetQualityByIdTotal | data/qualities.ts:4-57 | looking up any tag by its own spelling yields that tag's catalog entry |
| Qualities.GetRatingLabel | data/qualities.ts:59-67 | the label is "Not Rated" exactly for numbers outside 1..5 |
| Qualities.RatingLabelsDistinct | data/qualities.ts:60-65 | the five labels of the scale differ pairwise, so a label identifies its rating |
| MockStore.IndexOfUser | data/mockData.ts:115 | `findIndex` gives the first user with the id, or nothing exactly when no user has it |
| MockStore.MembersOf | data/mockData.ts:82 | a team's member list is no longer than the store; a user is listed exactly when it is a stored user naming that team |
| MockStore.UpdateUserQualities | data/mockData.ts:111-122 | the list keeps its length; only `qualities` can change, and only for the first user with the id, who gets the new list; an unknown id changes nothing |
| MockStore.MembersOfMembership | data/mockData.ts:82 | a user is a team member exactly when it is a stored user naming that team |
| MockStore.MembersOfAppend | data/mockData.ts:82 | filtering distributes over concatenation, so members keep their seed order |
| MockStore.MembershipIsPartition | data/mockData.ts:76-98 | with derived member lists, distinct team ids and every user placed, each user is in exactly one team |
| MockStore.SeedTeamMembers | data/mockData.ts:76-98 | the seeded teams hold users 1-2, 3-4 and 5-6, in seed order |
| MockStore.SeedStoreConsistent | data/mockData.ts:76-105 | the seed's member lists are derived by team id, its team ids are distinct, every user is placed, every team belongs to "company1", and the company lists exactly the seeded teams |
| MockStore.SeedAssessmentsDistinct | data/mockData.ts:4-73 | every seeded user has an assessment list, and no list rates a quality twice |
| Aggregation.TotalWithinCount | app/directory/company.tsx:20-27 | for each quality, the summed ratings lie between the number of ratings and five times that number |
| Aggregation.HalfUnits | app/directory/company.tsx:32-34 | with no ratings the value is the neutral 3; otherwise it is the mean rounded to the nearest half, ties upward |
| Aggregation.HalfUnitsUnique | app/directory/company.tsx:33 | the rounding condition picks out one half-unit value only |
| Aggregation.HalfUnitsInRange | app/directory/company.tsx:33 | a mean of ratings in 1..5 rounds to a half-unit value in 1..5 |
| Aggregation.CalculateCompanyAverages | app/directory/company.tsx:11-38 | one entry per catalog quality in catalog order, dated `today`; 3 for an unrated quality, otherwise the rounded mean over all members of all teams; the note quotes the count |
| Aggregation.AveragesInRange | app/directory/company.tsx:30-37 | every average on the chart is a multiple of 0.5 in [1, 5] |
| Aggregation.AveragesOfNoTeams | app/directory/company.tsx:32-35 | with no teams every quality shows 3, "based on 0 employee ratings" |
| Aggregation.AveragesIgnoreTeamOrder | app/directory/company.tsx:20-27 | reordering the teams leaves every average unchanged |
| Aggregation.AveragesIgnoreMemberOrder | app/directory/company.tsx:21-26 | reordering the members within each team leaves every average unchanged |
| Aggregation.HalfUnitsExamples | app/directory/company.tsx:33 | 12/3 gives 4, 9/2 gives 4.5 and 11/3 gives 3.5; 17/4 = 4.25, halfway between 4 and 4.5, rounds up to 4.5, and 15/4 = 3.75 rounds to 4 |
| Aggregation.SeedLeadershipTally | app/directory/company.tsx:20-27 | the seed holds three leadership ratings, summing to 13 |
| Aggregation.SeedLeadershipAverage | app/directory/company.tsx:30-34 | the seeded company shows leadership as 4.5 |
| Aggregation.MemberTotalCountsUsers | app/directory/company.tsx:76 | with derived member lists, distinct team ids and every user placed, the member tally equals the number of users |
| Aggregation.MemberTotal | app/directory/company.tsx:76 | the member tally is never negative, and it is zero exactly when no team has a member |
| Aggregation.SeedMemberTotal | app/directory/company.tsx:76 | the seeded company shows 6 members |
| Text.Trim | components/QualityRating.tsx:53 | the result is the slice of the input left once ECMAScript white space and line terminators are stripped from both ends |
| Text.Utf16Length | components/QualityRating.tsx:79 | `length` counts between one and two units per character: exactly one each for text within the Basic Multilingual Plane, exactly two each for text wholly beyond it |
| Text.NatToString | app/directory/company.tsx:35 | a count renders as a non-empty run of digits with no leading zero |
| Text.ParseNatToString | app/directory/company.tsx:35 | the rendered count reads back as the count, so distinct counts render differently |
| Questionnaire.IndexOfQuality | hooks/useQuestionnaireState.ts:33-35 | `findIndex` gives the first draft for the quality, or nothing exactly when none has it |
| Questionnaire.SelectQualities | hooks/useQuestionnaireState.ts:14-25 | the selection becomes the given list and the cursor 0; there is one draft per selected quality, in order, rated 3 with no motivation and dated `today`; the submit flags carry over |
| Questionnaire.UpdateAssessment | hooks/useQuestionnaireState.ts:28-50 | only drafts change; every id and date stays; only the first draft for the current quality can change, and it gets the new rating and motivation; without such a draft nothing changes |
| Questionnaire.GoToNextQuality | hooks/useQuestionnaireState.ts:52-61 | only the cursor moves; it stays on the last quality and otherwise advances by one |
| Questionnaire.GoToPreviousQuality | hooks/useQuestionnaireState.ts:63-68 | only the cursor moves; it stays at 0 and otherwise steps back by one |
| Questionnaire.IsLastQuality | hooks/useQuestionnaireState.ts:75-77 | "last" holds exactly when the cursor is on a selected quality with none after it, so never with an empty selection |
| Questionnaire.GetCurrentAssessment | hooks/useQuestionnaireState.ts:70-73 | the result is the first draft for the current quality; it is nothing when the cursor is past the selection or no draft matches |
| Questionnaire.SelectThenCurrent | hooks/useQuestionnaireState.ts:14-25 | right after selecting a non-empty list, the current draft is the fresh one for its first quality, and "last" holds exactly for a single selection |
| Questionnaire.UpdateThenCurrent | hooks/useQuestionnaireState.ts:28-50 | after saving, the current draft reads back with the saved rating and motivation |
| Questionnaire.UpdateIdempotent | hooks/useQuestionnaireState.ts:28-50 | saving the same answer twice equals saving it once |
| Questionnaire.NextFixedExactlyAtLast | hooks/useQuestionnaireState.ts:52-61 | the forward step is a no-op exactly on the last quality |
| Questionnaire.NavigationStaysInRange | hooks/useQuestionnaireState.ts:52-68 | with the cursor on a selected quality, both steps keep it on one |
| Questionnaire.NextThenPrevious | hooks/useQuestionnaireState.ts:52-68 | forward then back returns to the same state, away from the last quality |
| Questionnaire.PreviousThenNext | hooks/useQuestionnaireState.ts:52-68 | back then forward returns to the same state, with the cursor on a selected quality other than the first |
| Questionnaire.NextOnEmptySelectionAdvances | hooks/useQuestionnaireState.ts:54 | with nothing selected the "last" test compares with -1, fails, and the forward step advances |
| Questionnaire.Upsert | hooks/useQuestionnaireState.ts:90-99 | the draft becomes the entry found for its quality; the list grows by one exactly when the quality was absent; ids stay in place, and every entry other than the first one for the draft's quality is untouched |
| Questionnaire.UpsertKeepsOthers | hooks/useQuestionnaireState.ts:90-99 | lookups of every other quality are unaffected |
| Questionnaire.MergeAssessments | hooks/useQuestionnaireState.ts:85-100 | existing ids stay in place, entries for qualities no draft mentions are unchanged, and the result covers exactly the qualities of both lists |
| Questionnaire.MergeStoresEveryDraft | hooks/useQuestionnaireState.ts:85-100 | with drafts for distinct qualities, each draft is the entry found for its quality |
| Questionnaire.MergeLength | hooks/useQuestionnaireState.ts:85-100 | with drafts for distinct qualities, the list grows by the number of qualities it did not hold |
| Questionnaire.MergeKeepsUntouched | hooks/useQuestionnaireState.ts:85-100 | a quality no draft mentions is found as it was before the merge |
| Questionnaire.MergeKeepsDistinct | hooks/useQuestionnaireState.ts:85-100 | merging into a list without repeated qualities keeps it without repeats |
| Questionnaire.UpsertAppendsNew | hooks/useQuestionnaireState.ts:91-99 | a draft for a quality the list does not hold is pushed at the end, and the quality joins the list's ids |
| Questionnaire.MergeAppendsNewInOrder | hooks/useQuestionnaireState.ts:90-99 | drafts for distinct qualities the list does not hold yet end up after the existing entries, in draft order: the merge is the existing list followed by the drafts |
| Questionnaire.BeginSubmit | hooks/useQuestionnaireState.ts:80 | the submitting flag is raised; the selection, the cursor, the screen shown, the current draft, the drafts and the completion flag stay as they were |
| Questionnaire.FinishSubmit | hooks/useQuestionnaireState.ts:104-108 | the submitting flag drops and the completion screen shows; selection, cursor and drafts are kept |
| Questionnaire.ResetQuestionnaire | hooks/useQuestionnaireState.ts:112-120 | the selection screen shows again, with the cursor at 0, no drafts, no current draft, and neither flag raised |
| Questionnaire.SessionLifecycle | hooks/useQuestionnaireState.ts:79-120 | selecting starts rating at the first quality; submission passes through "submitting" and ends complete with selection, cursor and drafts intact; reset returns the initial state, which shows the selection screen |
| Selection.Remove | components/QualitySelection.tsx:20 | the filter keeps exactly the entries other than the tapped quality and never lengthens the list; filtering an absent quality changes nothing |
| Selection.RemoveCutsOneSlot | components/QualitySelection.tsx:19-20 | in a list without repeats, the filter cuts out the one slot holding the quality and keeps the rest in order |
| Selection.Toggle | components/QualitySelection.tsx:17-25 | the toggled quality becomes selected exactly when it was not; others keep their status; an unselected one goes at the end; a selected one shortens the list |
| Selection.ToggleOffKeepsOrder | components/QualitySelection.tsx:19-20 | unselecting removes that quality's slot and keeps the others' relative order |
| Selection.ToggleKeepsNoDup | components/QualitySelection.tsx:17-25 | toggling never makes a quality appear twice |
| Selection.ToggleTwiceRestores | components/QualitySelection.tsx:19-22 | toggling an unselected quality on and off restores the list |
| Selection.ReachableSelectionNoDup | components/QualitySelection.tsx:15-25 | starting from the empty selection, any run of taps leaves no quality listed twice |
| Selection.NoDupAtMostEight | components/QualitySelection.tsx:44-53 | such a selection never exceeds the eight catalog qualities |
| Selection.HandleContinue | components/QualitySelection.tsx:27-31 | the selection is handed on unchanged exactly when it is not empty |
| Selection.ContinueGate | components/QualitySelection.tsx:75-87 | the button is enabled exactly when pressing it hands the selection on, and its caption quotes the selection's size |
| Selection.ContinueLabelInjective | components/QualitySelection.tsx:84-86 | equal captions mean equal selection sizes |
| RatingForm.InitialRating | components/QualityRating.tsx:27-29 | the form opens on the given rating, or on 3 when there is none; the falsy fallback never hides a real rating |
| RatingForm.InitialMotivation | components/QualityRating.tsx:30-32 | the form opens on the given motivation, or on "" when there is none |
| RatingForm.IsSubmitDisabled | components/QualityRating.tsx:53 | submitting is blocked whenever the text has fewer than ten UTF-16 units, and whenever it is all white space; an allowed text trims to something non-empty |
| RatingForm.GateStricterThanCounter | components/QualityRating.tsx:53-79 | whenever submitting is allowed the counter shows ten or more, and a counter under ten means submitting is blocked |
| RatingForm.TenSpacesShowTenButStayDisabled | components/QualityRating.tsx:53-79 | ten spaces show "10 characters (minimum 10)" yet cannot be submitted |
| RatingForm.PlainTextOfTenAccepted | components/QualityRating.tsx:53 | ten or more characters with no white space at either end can be submitted |
| RatingForm.HandleSubmit | components/QualityRating.tsx:44-51 | the answer is always reported first, and submission is requested, last, exactly on the last quality |
| RatingForm.RatingOptionsComplete | components/QualityRating.tsx:86-106 | the options are 1..5 in order, every rating is offered, and each has its own real label |
| RatingForm.FilledStarsIsRating | components/QualityRating.tsx:94-99 | a rating of n fills exactly the first n stars |
| RatingForm.PreviousOfferedIffItMoves | components/QualityRating.tsx:115 | "Previous" is shown exactly when pressing it would move the cursor |
| RatingForm.CaptionMatchesDispatch | components/QualityRating.tsx:134-136 | the caption says "Submit Assessment" exactly when the press requests submission |
| RatingForm.RevisitShowsAnswer | components/QualityRating.tsx:27-32 | after an answer is saved, the form for that quality opens on the saved rating and motivation, both in place and on coming back to it by stepping forward then back (off the last quality) or back then forward (off the first) |
| RatingForm.FirstFormOpensOnDefaults | components/QualityRating.tsx:27-32 | the first form after a selection opens on rating 3 with no motivation, which the gate blocks |
| Submission.HandleComplete | hooks/useQuestionnaireState.ts:28-61 | as the questionnaire screen chains `updateAssessment` and `goToNextQuality`, the answer is saved into the drafts and the cursor advances unless on the last quality; nothing else changes |
| Submission.StoreLatest | hooks/useQuestionnaireState.ts:86-102 | the store keeps its length and ids; only the user with the id can change, and only in `qualities`; an unknown id changes nothing |
| Submission.StoreLatestContents | hooks/useQuestionnaireState.ts:86-102 | after storing, every draft is found in the user's list, and every quality the drafts do not mention is found as before |
| Submission.StoreAsWritten | hooks/useQuestionnaireState.ts:86-102 | the store keeps its length and ids, and only the bound user's slot can change, and only in `qualities` |
| Submission.PressPrimary | components/QualityRating.tsx:44-51 | away from the last quality the press saves and advances, leaving the store alone; on the last it completes the session, keeping its selection and cursor, and stores the drafts that include the answer just saved |
| Submission.PressPrimaryAsWritten | hooks/useQuestionnaireState.ts:79-110 | away from the last quality it is the same as the corrected press; on the last it completes the session, keeping its selection and cursor and holding the drafts with the answer saved, but stores the drafts of the render before the press |
| Submission.SelectionGivesDistinctDrafts | hooks/useQuestionnaireState.ts:14-25 | a selection without repeats yields drafts for distinct qualities |
| Submission.SubmitStoresEnteredAnswer | hooks/useQuestionnaireState.ts:79-110 | submitting from the last quality stores the answer on the screen and every other draft of the session |
| Submission.SubmitKeepsUntouched | hooks/useQuestionnaireState.ts:86-102 | qualities the session did not rate keep their stored entries |
| Submission.SubmissionsAccumulate | hooks/useQuestionnaireState.ts:86-102 | an answer stored by one session survives a later session that does not rate that quality |
| Submission.AsWrittenStoresRenderedDrafts | hooks/useQuestionnaireState.ts:90 | as written, the stored entries are the pre-press drafts |
| Submission.StaleDraftsLoseLastAnswer | hooks/useQuestionnaireState.ts:90 | as written, rating a single quality 5 with an accepted motivation stores rating 3 and an empty motivation |
| Submission.CorrectedKeepsLastAnswer | hooks/useQuestionnaireState.ts:79-110 | the corrected press on that input stores rating 5 and the motivation entered |
| Submission.SecondSubmissionDropsFirst | hooks/useQuestionnaireState.ts:86 | as written, a second submission in the same run discards the quality the first one added |
| Submission.CorrectedKeepsFirst | hooks/useQuestionnaireState.ts:86-102 | the corrected store keeps it |

## Left out

- Rendering is not modelled. This covers the spider chart's trigonometry, the completion screen, profile and team cards, the team and directory screens, navigation (`router.push`), styles and colours.
- The `useEffect` in `components/QualityRating.tsx:36-42` is not modelled; it re-syncs the form with its props. The model opens each form on its initial values instead.
- Submission's one-second `setTimeout` is modelled as a begin/finish pair with nothing in between. No other event interleaves.
- `new Date().toISOString()` is not modelled. It becomes the `today` parameter.
- Quality colours, and the wording of names and descriptions beyond the catalog itself, are not modelled; they are display data.
- Aggregation.HalfUnits: states exact rounding of the rational mean. The source computes in binary floating point. The two agree whenever `total / count * 2` is computed without an error that crosses a half. That is not proved here.
- RatingForm.IsSubmitDisabled: the contract names the texts that are blocked (fewer than ten units, or all white space) and what an allowed text looks like. The exact rule on the trimmed length is given only by the definition; RatingForm.PlainTextOfTenAccepted states the converse for text with non-white ends.
- Qualities.GetRatingLabel: its contract only says which inputs get a real label. RatingLabelsDistinct adds that the five labels differ. The particular word for each level is given only by the definition. The model also takes an integer, where the source accepts any number.
- Team member lists are snapshots taken when the store loads (`data/mockData.ts:82`), so they do not reflect later `updateUserQualities` calls. The model passes teams in as values and does not follow this staleness.
- Heap identity and React rendering are not modelled. The two aliasing effects they cause are written out explicitly as the findings below.
- `selectQualities` (hooks/useQuestionnaireState.ts:14-25) accepts any list, including the empty one; its only caller (components/QualitySelection.tsx:27-31) never passes an empty one. `SelectQualities` has no precondition.

## Findings

| source | as written | input that shows it | evidently intended | confidence | as-written member | corrected member |
|---|---|---|---|---|---|---|
| hooks/useQuestionnaireState.ts:90 | On the last quality the button calls `onComplete` and then `onSubmit` in one handler (components/QualityRating.tsx:44-51). The deferred merge reads the `state` captured when the handler was rendered, which predates the answer just saved. | Select only decisionMaking, rate it 5 with "I weigh options carefully before acting.", and press "Submit Assessment". The profile then stores rating 3 with an empty motivation (Submission.StaleDraftsLoseLastAnswer). | The drafts that include the saved answer are merged (Submission.SubmitStoresEnteredAnswer, and Submission.CorrectedKeepsLastAnswer on the same input). | not executed | Submission.PressPrimaryAsWritten | Submission.PressPrimary |
| hooks/useQuestionnaireState.ts:86 | The merge starts from `currentUser.qualities`. `currentUser` stays bound to the seed object (data/mockData.ts:108), while `updateUserQualities` stores a new object in the array (data/mockData.ts:117-120). | Submit decisionMaking in one session, then adaptability in a second session in the same run. The decisionMaking entry is gone (Submission.SecondSubmissionDropsFirst). | The merge starts from the user's current stored list, so submissions accumulate (Submission.SubmissionsAccumulate, and Submission.CorrectedKeepsFirst on the same input). | not executed | Submission.StoreAsWritten | Submission.StoreLatest |

=== FILE: aggregation.dfy ===
/** The company screen's per-quality averages and its member tally.

    Ratings are summed per quality over every member of every team; each
    catalog quality then shows the mean rounded to the nearest half point,
    ties upward, or the neutral 3 when nobody rated it. Averages are kept in
    integer half-units (9 stands for 4.5), which is exact where the source
    computes with floating point. */
module Aggregation {
  import opened Types
  import opened Sums
  import opened Qualities
  import opened MockStore
  import Text

  /** The value shown for a quality nobody has rated yet. */
  const UnratedAverage: int := 3

  /** One point on the company chart. `halfUnits` is twice the displayed
      rating; it may be odd, which `RatingLevel` cannot express. */
  datatype AverageEntry = AverageEntry(
    qualityId: QualityType,
    halfUnits: int,
    motivation: string,
    date: string)

  // Per-assessment weights: how much one assessment adds to the count and
  // to the total of quality `q`.

  function CountWeight(q: QualityType): Assessment -> int
  {
    (a: Assessment) => if a.qualityId == q then 1 else 0
  }

  function RatingWeight(q: QualityType): Assessment -> int
  {
    (a: Assessment) => if a.qualityId == q then a.rating as int else 0
  }

  /** Lifts a per-assessment weight to a member (nothing for a member
      without assessments) and then to a team. */
  function MemberWeight(w: Assessment -> int): User -> int
  {
    (u: User) => Sum(QualitiesOf(u), w)
  }

  function TeamWeight(w: Assessment -> int): Team -> int
  {
    (t: Team) => Sum(t.members, MemberWeight(w))
  }

  /** How many assessments of quality `q` the members of `teams` carry. */
  function RatingCount(teams: seq<Team>, q: QualityType): nat
  {
    CountSumNonNegative(teams, q);
    Sum(teams, TeamWeight(CountWeight(q)))
  }

  /** The sum of those assessments' ratings. */
  function RatingTotal(teams: seq<Team>, q: QualityType): int
  {
    Sum(teams, TeamWeight(RatingWeight(q)))
  }

  /** Every count is a count: never negative. */
  lemma CountSumNonNegative(teams: seq<Team>, q: QualityType)
    ensures 0 <= Sum(teams, TeamWeight(CountWeight(q)))
  {
    forall i | 0 <= i < |teams|
      ensures 0 <= TeamWeight(CountWeight(q))(teams[i])
    {
      var t := teams[i];
      forall k | 0 <= k < |t.members|
        ensures 0 <= MemberWeight(CountWeight(q))(t.members[k])
      {
        var qs := QualitiesOf(t.members[k]);
        assert forall j :: 0 <= j < |qs| ==> 0 <= CountWeight(q)(qs[j]);
        SumNonNegative(qs, CountWeight(q));
      }
      SumNonNegative(t.members, MemberWeight(CountWeight(q)));
    }
    SumNonNegative(teams, TeamWeight(CountWeight(q)));
  }

  /** Since every rating is 1..5, the total of a quality lies between its
      count and five times its count. */
  lemma {:induction false} TotalWithinCount(teams: seq<Team>, q: QualityType)
    ensures RatingCount(teams, q) <= RatingTotal(teams, q) <= 5 * RatingCount(teams, q)
  {
    var c := CountWeight(q);
    var t := RatingWeight(q);
    forall i | 0 <= i < |teams|
      ensures 1 * TeamWeight(c)(teams[i]) <= TeamWeight(t)(teams[i]) <= 5 * TeamWeight(c)(teams[i])
    {
      var ms := teams[i].members;
      forall k | 0 <= k < |ms|
        ensures 1 * MemberWeight(c)(ms[k]) <= MemberWeight(t)(ms[k]) <= 5 * MemberWeight(c)(ms[k])
      {
        var qs := QualitiesOf(ms[k]);
        assert forall j :: 0 <= j < |qs| ==> 1 * c(qs[j]) <= t(qs[j]) <= 5 * c(qs[j]);
        SumBounds(qs, c, t, 1, 5);
      }
      SumBounds(ms, MemberWeight(c), MemberWeight(t), 1, 5);
    }
    SumBounds(teams, TeamWeight(c), TeamWeight(t), 1, 5);
  }

  /** `Math.round(total / count * 2) / 2` in half-units, or the neutral 3
      (six half-units) when there is nothing to average. For a positive
      count the result is the half-unit nearest the mean, ties upward:
      the mean minus half the result lies in [-1/4, 1/4). */
  function HalfUnits(total: int, count: nat): (r: int)
    ensures count == 0 ==> r == 2 * UnratedAverage
    ensures count > 0 ==> -(count as int) <= 4 * total - 2 * count * r < count
  {
    if count == 0 then 2 * UnratedAverage
    else
      var r := (4 * total + count) / (2 * count);
      FloorDivision(4 * total + count, 2 * count);
      r
  }

  /** Dafny's `/` on a positive divisor is floor division. */
  lemma FloorDivision(n: int, d: int)
    requires 0 < d
    ensures d * (n / d) <= n < d * (n / d) + d
  {
  }

  /** Multiplying a positive factor into a gap of at least one. */
  lemma ScaleGap(c: int, lo: int, hi: int)
    requires 0 < c && lo < hi
    ensures c * lo + c <= c * hi
  {
    var k := hi - lo - 1;
    assert c * hi == c * lo + c + c * k;
  }

  /** The rounding condition pins the half-unit down: no other value meets it. */
  lemma HalfUnitsUnique(total: int, count: nat, h: int)
    requires 0 < count
    requires -(count as int) <= 4 * total - 2 * count * h < count
    ensures h == HalfUnits(total, count)
  {
    var r := HalfUnits(total, count);
    if h < r {
      ScaleGap(2 * count, h, r);
    } else if h > r {
      ScaleGap(2 * count, r, h);
    }
  }

  /** A mean of ratings on the 1..5 scale rounds to a half-unit in 2..10,
      that is to a multiple of 0.5 in [1, 5]. */
  lemma HalfUnitsInRange(total: int, count: nat)
    requires count <= total <= 5 * count
    ensures 2 <= HalfUnits(total, count) <= 10
  {
    var r := HalfUnits(total, count);
    if count > 0 {
      if r < 2 {
        ScaleGap(2 * count, r, 2);
      }
      if r > 10 {
        ScaleGap(2 * count, 10, r);
      }
    }
  }

  /** The note shown with each average. */
  function AverageMotivation(count: nat): string
  {
    "Company average based on " + Text.NatToString(count) + " employee ratings"
  }

  /** The chart entry for quality `q` over `teams`, dated `today`. */
  function AverageFor(teams: seq<Team>, q: QualityType, today: string): AverageEntry
  {
    var count := RatingCount(teams, q);
    AverageEntry(q, HalfUnits(RatingTotal(teams, q), count), AverageMotivation(count), today)
  }

  /** `calculateCompanyAverages`: one entry per catalog quality, in catalog
      order, each the rounded mean of that quality's ratings across all
      members of all teams, stamped with the computation date. */
  function CalculateCompanyAverages(teams: seq<Team>, today: string): (r: seq<AverageEntry>)
    ensures |r| == |Catalog|
    ensures forall i :: 0 <= i < |r| ==> r[i].qualityId == Catalog[i].id && r[i].date == today
    ensures forall i :: 0 <= i < |r| ==>
      var count := RatingCount(teams, Catalog[i].id);
      var total := RatingTotal(teams, Catalog[i].id);
      && (count == 0 ==> r[i].halfUnits == 2 * UnratedAverage)
      && (count > 0 ==> -(count as int) <= 4 * total - 2 * count * r[i].halfUnits < count)
      && r[i].motivation == AverageMotivation(count)
  {
    seq(|Catalog|, i requires 0 <= i < |Catalog| => AverageFor(teams, Catalog[i].id, today))
  }

  /** Every average on the company chart is a multiple of 0.5 in [1, 5]. */
  lemma AveragesInRange(teams: seq<Team>, today: string)
    ensures forall e :: e in CalculateCompanyAverages(teams, today) ==> 2 <= e.halfUnits <= 10
  {
    var r := CalculateCompanyAverages(teams, today);
    forall i | 0 <= i < |r|
      ensures 2 <= r[i].halfUnits <= 10
    {
      var q := Catalog[i].id;
      TotalWithinCount(teams, q);
      HalfUnitsInRange(RatingTotal(teams, q), RatingCount(teams, q));
    }
  }

  /** With no teams every quality shows the neutral 3, based on 0 ratings. */
  lemma AveragesOfNoTeams(today: string)
    ensures forall e :: e in CalculateCompanyAverages([], today) ==>
      e.halfUnits == 2 * UnratedAverage && e.motivation == "Company average based on 0 employee ratings"
  {
    var r := CalculateCompanyAverages([], today);
    assert forall q: QualityType :: RatingCount([], q) == 0;
    assert AverageMotivation(0) == "Company average based on 0 employee ratings" by {
      assert Text.NatToString(0) == "0";
    }
    forall i | 0 <= i < |r|
      ensures r[i].halfUnits == 2 * UnratedAverage && r[i].motivation == AverageMotivation(0)
    {
    }
  }

  /** Reordering the teams does not change the chart. */
  lemma AveragesIgnoreTeamOrder(teams: seq<Team>, shuffled: seq<Team>, today: string)
    requires multiset(teams) == multiset(shuffled)
    ensures CalculateCompanyAverages(teams, today) == CalculateCompanyAverages(shuffled, today)
  {
    forall q: QualityType
      ensures RatingCount(teams, q) == RatingCount(shuffled, q)
      ensures RatingTotal(teams, q) == RatingTotal(shuffled, q)
    {
      SumPermutation(teams, shuffled, TeamWeight(CountWeight(q)));
      SumPermutation(teams, shuffled, TeamWeight(RatingWeight(q)));
    }
  }

  /** Reordering the members inside each team does not change the chart. */
  lemma AveragesIgnoreMemberOrder(teams: seq<Team>, shuffled: seq<Team>, today: string)
    requires |teams| == |shuffled|
    requires forall i :: 0 <= i < |teams| ==> multiset(teams[i].members) == multiset(shuffled[i].members)
    ensures CalculateCompanyAverages(teams, today) == CalculateCompanyAverages(shuffled, today)
  {
    forall q: QualityType
      ensures RatingCount(teams, q) == RatingCount(shuffled, q)
      ensures RatingTotal(teams, q) == RatingTotal(shuffled, q)
    {
      forall w | w in {CountWeight(q), RatingWeight(q)}
        ensures Sum(teams, TeamWeight(w)) == Sum(shuffled, TeamWeight(w))
      {
        forall i | 0 <= i < |teams|
          ensures TeamWeight(w)(teams[i]) == TeamWeight(w)(shuffled[i])
        {
          SumPermutation(teams[i].members, shuffled[i].members, MemberWeight(w));
        }
        SumPointwise(teams, TeamWeight(w), shuffled, TeamWeight(w));
      }
    }
  }

  /** Small cases: {4, 5, 3} gives 4.0, {4, 5} gives 4.5 and {3, 4, 4}
      gives 3.5. The mean 4.25 of {4, 4, 4, 5} lies halfway between 4.0 and
      4.5 and rounds up to 4.5; the mean 3.75 of {3, 4, 4, 4} rounds to 4.0. */
  lemma HalfUnitsExamples()
    ensures HalfUnits(4 + 5 + 3, 3) == 8
    ensures HalfUnits(4 + 5, 2) == 9
    ensures HalfUnits(3 + 4 + 4, 3) == 7
    ensures HalfUnits(4 + 4 + 4 + 5, 4) == 9
    ensures HalfUnits(3 + 4 + 4 + 4, 4) == 8
  {
  }

  /** The weight of a two-assessment member, a two-member team or a
      three-team company, unfolded. */
  lemma SumOfTwo<T>(a: T, b: T, f: T -> int)
    ensures Sum([a, b], f) == f(a) + f(b)
  {
    assert [a, b][1..] == [b];
    assert [b][1..] == [];
    assert Sum([b], f) == f(b) + Sum([], f);
  }

  lemma SumOfThree<T>(a: T, b: T, c: T, f: T -> int)
    ensures Sum([a, b, c], f) == f(a) + f(b) + f(c)
  {
    assert [a, b, c][1..] == [b, c];
    SumOfTwo(b, c, f);
  }

  lemma SeedLeadershipOfUser1()
    ensures MemberWeight(CountWeight(Leadership))(User1) == 1
    ensures MemberWeight(RatingWeight(Leadership))(User1) == 4
  {
    assert QualitiesOf(User1) == [QualitiesOf(User1)[0], QualitiesOf(User1)[1], QualitiesOf(User1)[2]];
    SumOfThree(QualitiesOf(User1)[0], QualitiesOf(User1)[1], QualitiesOf(User1)[2], CountWeight(Leadership));
    SumOfThree(QualitiesOf(User1)[0], QualitiesOf(User1)[1], QualitiesOf(User1)[2], RatingWeight(Leadership));
  }

  lemma SeedLeadershipOfUser2()
    ensures MemberWeight(CountWeight(Leadership))(User2) == 0
    ensures MemberWeight(RatingWeight(Leadership))(User2) == 0
  {
    assert QualitiesOf(User2) == [QualitiesOf(User2)[0], QualitiesOf(User2)[1]];
    SumOfTwo(QualitiesOf(User2)[0], QualitiesOf(User2)[1], CountWeight(Leadership));
    SumOfTwo(QualitiesOf(User2)[0], QualitiesOf(User2)[1], RatingWeight(Leadership));
  }

  lemma SeedLeadershipOfUser3()
    ensures MemberWeight(CountWeight(Leadership))(User3) == 1
    ensures MemberWeight(RatingWeight(Leadership))(User3) == 5
  {
    assert QualitiesOf(User3) == [QualitiesOf(User3)[0], QualitiesOf(User3)[1], QualitiesOf(User3)[2]];
    SumOfThree(QualitiesOf(User3)[0], QualitiesOf(User3)[1], QualitiesOf(User3)[2], CountWeight(Leadership));
    SumOfThree(QualitiesOf(User3)[0], QualitiesOf(User3)[1], QualitiesOf(User3)[2], RatingWeight(Leadership));
  }

  lemma SeedLeadershipOfUser4()
    ensures MemberWeight(CountWeight(Leadership))(User4) == 0
    ensures MemberWeight(RatingWeight(Leadership))(User4) == 0
  {
    assert QualitiesOf(User4) == [QualitiesOf(User4)[0], QualitiesOf(User4)[1]];
    SumOfTwo(QualitiesOf(User4)[0], QualitiesOf(User4)[1], CountWeight(Leadership));
    SumOfTwo(QualitiesOf(User4)[0], QualitiesOf(User4)[1], RatingWeight(Leadership));
  }

  lemma SeedLeadershipOfUser5()
    ensures MemberWeight(CountWeight(Leadership))(User5) == 1
    ensures MemberWeight(RatingWeight(Leadership))(User5) == 4
  {
    assert QualitiesOf(User5) == [QualitiesOf(User5)[0], QualitiesOf(User5)[1]];
    SumOfTwo(QualitiesOf(User5)[0], QualitiesOf(User5)[1], CountWeight(Leadership));
    SumOfTwo(QualitiesOf(User5)[0], QualitiesOf(User5)[1], RatingWeight(Leadership));
  }

  lemma SeedLeadershipOfUser6()
    ensures MemberWeight(CountWeight(Leadership))(User6) == 0
    ensures MemberWeight(RatingWeight(Leadership))(User6) == 0
  {
    assert QualitiesOf(User6) == [QualitiesOf(User6)[0], QualitiesOf(User6)[1]];
    SumOfTwo(QualitiesOf(User6)[0], QualitiesOf(User6)[1], CountWeight(Leadership));
    SumOfTwo(QualitiesOf(User6)[0], QualitiesOf(User6)[1], RatingWeight(Leadership));
  }

  /** Leadership in the seed: users 1, 3 and 5 rate it 4, 5 and 4. */
  lemma SeedLeadershipTally()
    ensures RatingCount(SeedTeams, Leadership) == 3
    ensures RatingTotal(SeedTeams, Leadership) == 13
  {
    SeedTeamMembers();
    LeadershipTallyOf(SeedTeams);
  }

  /** The leadership tally of any three teams holding the seeded users in
      pairs. */
  lemma LeadershipTallyOf(teams: seq<Team>)
    requires |teams| == 3
    requires teams[0].members == [User1, User2]
    requires teams[1].members == [User3, User4]
    requires teams[2].members == [User5, User6]
    ensures RatingCount(teams, Leadership) == 3
    ensures RatingTotal(teams, Leadership) == 13
  {
    SeedLeadershipOfUser1();
    SeedLeadershipOfUser2();
    SeedLeadershipOfUser3();
    SeedLeadershipOfUser4();
    SeedLeadershipOfUser5();
    SeedLeadershipOfUser6();
    SumOfThreePairs(teams, CountWeight(Leadership));
    SumOfThreePairs(teams, RatingWeight(Leadership));
  }

  /** Three teams of two members each: the sum over all members. */
  lemma SumOfThreePairs(teams: seq<Team>, w: Assessment -> int)
    requires |teams| == 3
    requires |teams[0].members| == 2 && |teams[1].members| == 2 && |teams[2].members| == 2
    ensures Sum(teams, TeamWeight(w)) ==
      MemberWeight(w)(teams[0].members[0]) + MemberWeight(w)(teams[0].members[1])
      + MemberWeight(w)(teams[1].members[0]) + MemberWeight(w)(teams[1].members[1])
      + MemberWeight(w)(teams[2].members[0]) + MemberWeight(w)(teams[2].members[1])
  {
    forall i | 0 <= i < 3
      ensures TeamWeight(w)(teams[i]) == MemberWeight(w)(teams[i].members[0]) + MemberWeight(w)(teams[i].members[1])
    {
      assert teams[i].members == [teams[i].members[0], teams[i].members[1]];
      SumOfTwo(teams[i].members[0], teams[i].members[1], MemberWeight(w));
    }
    assert teams == [teams[0], teams[1], teams[2]];
    SumOfThree(teams[0], teams[1], teams[2], TeamWeight(w));
  }

  /** On the seed data leadership averages 13/3, shown as 4.5. */
  lemma SeedLeadershipAverage(today: string)
    ensures CalculateCompanyAverages(SeedTeams, today)[0].halfUnits == 9
  {
    SeedLeadershipTally();
  }

  // ---------------------------------------------------------------------
  // Member tally shown under the company name
  // ---------------------------------------------------------------------

  function MemberCount(): Team -> int
  {
    (t: Team) => |t.members|
  }

  /** `teams.reduce((acc, team) => acc + team.members.length, 0)`. */
  function MemberTotal(teams: seq<Team>): (r: int)
    ensures 0 <= r
    ensures r == 0 <==> forall i :: 0 <= i < |teams| ==> teams[i].members == []
  {
    SumNonNegative(teams, MemberCount());
    MemberTotalZero(teams);
    Sum(teams, MemberCount())
  }

  /** The tally is zero exactly when no team has a member. */
  lemma {:induction false} MemberTotalZero(teams: seq<Team>)
    ensures Sum(teams, MemberCount()) == 0 <==> forall i :: 0 <= i < |teams| ==> teams[i].members == []
  {
    if teams != [] {
      MemberTotalZero(teams[1..]);
      SumNonNegative(teams[1..], MemberCount());
      assert forall i :: 1 <= i < |teams| ==> teams[i] == teams[1..][i - 1];
    }
  }

  /** How many members each of `ids` would get by filtering `users`. */
  function FilterCount(users: seq<User>): string -> int
  {
    (id: string) => |MembersOf(users, id)|
  }

  function Indicator(x: string): string -> int
  {
    (id: string) => if id == x then 1 else 0
  }

  /** Among distinct ids, exactly one equals an id in the list. */
  lemma {:induction false} IndicatorSum(ids: seq<string>, x: string)
    requires forall i, j :: 0 <= i < j < |ids| ==> ids[i] != ids[j]
    ensures Sum(ids, Indicator(x)) == if x in ids then 1 else 0
  {
    if ids != [] {
      IndicatorSum(ids[1..], x);
      assert x in ids <==> x == ids[0] || x in ids[1..];
    }
  }

  /** When every user names one of a list of distinct team ids, filtering by
      those ids splits the users without loss or overlap. */
  lemma {:induction false} FilterCountsPartition(users: seq<User>, ids: seq<string>)
    requires forall i, j :: 0 <= i < j < |ids| ==> ids[i] != ids[j]
    requires forall k :: 0 <= k < |users| ==> users[k].teamId in ids
    ensures Sum(ids, FilterCount(users)) == |users|
  {
    if users == [] {
      forall i | 0 <= i < |ids| ensures FilterCount(users)(ids[i]) == 0 { }
      SumBounds(ids, Indicator(""), FilterCount(users), 0, 0);
    } else {
      var u := users[0];
      var rest := users[1..];
      FilterCountsPartition(rest, ids);
      IndicatorSum(ids, u.teamId);
      forall i | 0 <= i < |ids|
        ensures FilterCount(users)(ids[i]) == Indicator(u.teamId)(ids[i]) + FilterCount(rest)(ids[i])
      {
      }
      SumAddPointwise(ids, Indicator(u.teamId), FilterCount(rest), FilterCount(users));
    }
  }

  /** Summing a pointwise sum of weights is summing each weight. */
  lemma {:induction false} SumAddPointwise<T>(xs: seq<T>, f: T -> int, g: T -> int, h: T -> int)
    requires forall i :: 0 <= i < |xs| ==> h(xs[i]) == f(xs[i]) + g(xs[i])
    ensures Sum(xs, h) == Sum(xs, f) + Sum(xs, g)
  {
    if xs != [] {
      SumAddPointwise(xs[1..], f, g, h);
    }
  }

  /** With member lists derived from `users`, distinct team ids and every
      user placed in a team, the company's member tally counts each user
      exactly once. */
  lemma {:induction false} MemberTotalCountsUsers(users: seq<User>, teams: seq<Team>)
    requires TeamsDerivedFrom(users, teams) && DistinctTeamIds(teams) && UsersPlaced(users, teams)
    ensures MemberTotal(teams) == |users|
  {
    var ids := seq(|teams|, i requires 0 <= i < |teams| => teams[i].id);
    forall k | 0 <= k < |users| ensures users[k].teamId in ids {
      assert users[k] in users;
      var i :| 0 <= i < |teams| && teams[i].id == users[k].teamId;
      assert ids[i] == users[k].teamId;
    }
    FilterCountsPartition(users, ids);
    SumPointwise(teams, MemberCount(), ids, FilterCount(users));
  }

  /** The seeded company shows 6 members. */
  lemma SeedMemberTotal()
    ensures MemberTotal(SeedCompany.teams) == 6
  {
    SeedStoreConsistent();
    MemberTotalCountsUsers(SeedUsers, SeedTeams);
  }
}

=== FILE: mock_data.dfy ===
/** The in-memory store: seeded users, teams derived from them by team id,
    the one company, and the single write the app performs on it. */
module MockStore {
  import opened Types

  /** `users.findIndex(u => u.id === id)`, with "not found" as None. */
  function IndexOfUser(users: seq<User>, id: string): (r: Option<nat>)
    ensures r.Some? ==> r.value < |users| && users[r.value].id == id
    ensures r.Some? ==> forall j :: 0 <= j < r.value ==> users[j].id != id
    ensures r.None? <==> forall j :: 0 <= j < |users| ==> users[j].id != id
  {
    if users == [] then None
    else if users[0].id == id then Some(0)
    else match IndexOfUser(users[1..], id)
      case None => None
      case Some(k) => Some(k + 1)
  }

  /** `updateUserQualities`: the first user with `id` gets `qs` as its
      assessments; an unknown id leaves the list as it was. */
  function UpdateUserQualities(users: seq<User>, id: string, qs: seq<Assessment>): (r: seq<User>)
    ensures |r| == |users|
    ensures forall j :: 0 <= j < |users| ==> r[j] == users[j].(qualities := r[j].qualities)
    ensures forall j :: 0 <= j < |users| && r[j] != users[j] ==> IndexOfUser(users, id) == Some(j)
    ensures forall j :: 0 <= j < |users| && IndexOfUser(users, id) == Some(j) ==> r[j].qualities == Some(qs)
    ensures (forall j :: 0 <= j < |users| ==> users[j].id != id) ==> r == users
  {
    match IndexOfUser(users, id)
    case None => users
    case Some(k) => users[k := users[k].(qualities := Some(qs))]
  }

  /** `users.filter(u => u.teamId === teamId)`: the members of a team. */
  function MembersOf(users: seq<User>, teamId: string): (r: seq<User>)
    ensures |r| <= |users|
    ensures forall i :: 0 <= i < |r| ==> r[i] in users && r[i].teamId == teamId
    ensures forall u {:trigger u in r} :: u in r <==> u in users && u.teamId == teamId
  {
    if users == [] then []
    else (if users[0].teamId == teamId then [users[0]] else []) + MembersOf(users[1..], teamId)
  }

  /** A user is a member of a team exactly when it is in the store and
      names that team. */
  lemma {:induction false} MembersOfMembership(users: seq<User>, teamId: string)
    ensures |MembersOf(users, teamId)| <= |users|
    ensures forall u :: u in MembersOf(users, teamId) <==> u in users && u.teamId == teamId
  {
    if users != [] {
      MembersOfMembership(users[1..], teamId);
      assert users == [users[0]] + users[1..];
    }
  }

  /** Filtering keeps the seed order: it distributes over concatenation. */
  lemma {:induction false} MembersOfAppend(a: seq<User>, b: seq<User>, teamId: string)
    ensures MembersOf(a + b, teamId) == MembersOf(a, teamId) + MembersOf(b, teamId)
  {
    if a == [] {
      assert a + b == b;
    } else {
      var head := if a[0].teamId == teamId then [a[0]] else [];
      assert (a + b)[1..] == a[1..] + b;
      assert MembersOf(a + b, teamId) == head + MembersOf(a[1..] + b, teamId);
      MembersOfAppend(a[1..], b, teamId);
    }
  }

  /** Every team's member list is the filter of `users` by its id. */
  ghost predicate TeamsDerivedFrom(users: seq<User>, teams: seq<Team>)
  {
    forall i :: 0 <= i < |teams| ==> teams[i].members == MembersOf(users, teams[i].id)
  }

  ghost predicate DistinctTeamIds(teams: seq<Team>)
  {
    forall i, j :: 0 <= i < j < |teams| ==> teams[i].id != teams[j].id
  }

  /** Every user names a team that exists. */
  ghost predicate UsersPlaced(users: seq<User>, teams: seq<Team>)
  {
    forall u :: u in users ==> exists i :: 0 <= i < |teams| && teams[i].id == u.teamId
  }

  /** With derived member lists, distinct team ids and every user placed,
      each user is a member of exactly one team: the one it names. */
  lemma MembershipIsPartition(users: seq<User>, teams: seq<Team>, u: User)
    requires TeamsDerivedFrom(users, teams) && DistinctTeamIds(teams) && UsersPlaced(users, teams)
    requires u in users
    ensures exists i :: 0 <= i < |teams| && u in teams[i].members
    ensures forall i, j :: 0 <= i < |teams| && 0 <= j < |teams| && u in teams[i].members && u in teams[j].members ==> i == j
  {
    var i :| 0 <= i < |teams| && teams[i].id == u.teamId;
    forall k | 0 <= k < |teams|
      ensures u in teams[k].members <==> teams[k].id == u.teamId
    {
      MembersOfMembership(users, teams[k].id);
    }
  }

  // ---------------------------------------------------------------------
  // Seed data
  // ---------------------------------------------------------------------

  const User1: User :=
    User("user1", "Alex Johnson", "Senior Developer",
      "https://images.pexels.com/photos/220453/pexels-photo-220453.jpeg?auto=compress&cs=tinysrgb&w=200",
      "team1", Some([
        Assessment(Leadership, 4, "I lead by example and mentor junior developers.", "2023-05-15"),
        Assessment(Creativity, 5, "I regularly propose innovative solutions to complex problems.", "2023-05-15"),
        Assessment(Teamwork, 3, "I collaborate well but sometimes prefer working independently.", "2023-05-15")]))

  const User2: User :=
    User("user2", "Sarah Chen", "UX Designer",
      "https://images.pexels.com/photos/774909/pexels-photo-774909.jpeg?auto=compress&cs=tinysrgb&w=200",
      "team1", Some([
        Assessment(Creativity, 5, "Design thinking is my passion and strength.", "2023-05-16"),
        Assessment(Communication, 4, "I effectively communicate design decisions to stakeholders.", "2023-05-16")]))

  const User3: User :=
    User("user3", "Michael Rodriguez", "Project Manager",
      "https://images.pexels.com/photos/1222271/pexels-photo-1222271.jpeg?auto=compress&cs=tinysrgb&w=200",
      "team2", Some([
        Assessment(Leadership, 5, "I excel at guiding teams toward project goals.", "2023-05-14"),
        Assessment(TimeManagement, 4, "I consistently deliver projects on schedule.", "2023-05-14"),
        Assessment(Communication, 5, "I maintain clear and consistent communication with all stakeholders.", "2023-05-14")]))

  const User4: User :=
    User("user4", "Jessica Lee", "Data Analyst",
      "https://images.pexels.com/photos/415829/pexels-photo-415829.jpeg?auto=compress&cs=tinysrgb&w=200",
      "team2", Some([
        Assessment(ProblemSolving, 5, "I enjoy finding insights in complex data sets.", "2023-05-17"),
        Assessment(Adaptability, 3, "I can adjust to new tools but prefer established methods.", "2023-05-17")]))

  const User5: User :=
    User("user5", "Daniel Smith", "Marketing Director",
      "https://images.pexels.com/photos/2379004/pexels-photo-2379004.jpeg?auto=compress&cs=tinysrgb&w=200",
      "team3", Some([
        Assessment(Creativity, 4, "I develop innovative marketing campaigns.", "2023-05-13"),
        Assessment(Leadership, 4, "I inspire my team to achieve ambitious marketing goals.", "2023-05-13")]))

  const User6: User :=
    User("user6", "Emily Wilson", "Content Writer",
      "https://images.pexels.com/photos/1239291/pexels-photo-1239291.jpeg?auto=compress&cs=tinysrgb&w=200",
      "team3", Some([
        Assessment(Communication, 5, "I excel at crafting clear and compelling messaging.", "2023-05-18"),
        Assessment(Creativity, 5, "I consistently generate fresh and engaging content ideas.", "2023-05-18")]))

  const SeedUsers: seq<User> := [User1, User2, User3, User4, User5, User6]

  const CompanyId: string := "company1"

  const SeedTeams: seq<Team> := [
    Team("team1", "Product Development",
      "Responsible for building and enhancing our core product offerings.",
      CompanyId, MembersOf(SeedUsers, "team1")),
    Team("team2", "Data Analytics",
      "Provides insights and data-driven recommendations to guide business decisions.",
      CompanyId, MembersOf(SeedUsers, "team2")),
    Team("team3", "Marketing",
      "Creates and executes strategies to promote our products and services.",
      CompanyId, MembersOf(SeedUsers, "team3"))
  ]

  const SeedCompany: Company := Company(CompanyId, "Innovatech Solutions", SeedTeams)

  /** `currentUser`, bound once to the first seeded user when the store loads. */
  const CurrentUser: User := SeedUsers[0]

  lemma MembersOfPair(a: User, b: User, teamId: string)
    ensures MembersOf([a, b], teamId)
      == (if a.teamId == teamId then [a] else []) + (if b.teamId == teamId then [b] else [])
  {
    assert [a, b][1..] == [b];
    assert [b][1..] == [];
    assert MembersOf([b], teamId) == (if b.teamId == teamId then [b] else []) + MembersOf([], teamId);
  }

  /** Filtering the six seeded users by `teamId`, pair by pair. */
  lemma SeedMembersOf(teamId: string)
    ensures MembersOf(SeedUsers, teamId)
      == MembersOf([User1, User2], teamId) + MembersOf([User3, User4], teamId) + MembersOf([User5, User6], teamId)
  {
    assert SeedUsers == [User1, User2] + ([User3, User4] + [User5, User6]);
    MembersOfAppend([User1, User2], [User3, User4] + [User5, User6], teamId);
    MembersOfAppend([User3, User4], [User5, User6], teamId);
  }

  lemma SeedTeam1Members()
    ensures MembersOf(SeedUsers, "team1") == [User1, User2]
  {
    SeedMembersOf("team1");
    MembersOfPair(User1, User2, "team1");
    MembersOfPair(User3, User4, "team1");
    MembersOfPair(User5, User6, "team1");
  }

  lemma SeedTeam2Members()
    ensures MembersOf(SeedUsers, "team2") == [User3, User4]
  {
    SeedMembersOf("team2");
    MembersOfPair(User1, User2, "team2");
    MembersOfPair(User3, User4, "team2");
    MembersOfPair(User5, User6, "team2");
  }

  lemma SeedTeam3Members()
    ensures MembersOf(SeedUsers, "team3") == [User5, User6]
  {
    SeedMembersOf("team3");
    MembersOfPair(User1, User2, "team3");
    MembersOfPair(User3, User4, "team3");
    MembersOfPair(User5, User6, "team3");
  }

  /** The seeded teams hold, in seed order, users 1-2, 3-4 and 5-6. */
  lemma SeedTeamMembers()
    ensures SeedTeams[0].members == [User1, User2]
    ensures SeedTeams[1].members == [User3, User4]
    ensures SeedTeams[2].members == [User5, User6]
  {
    SeedTeam1Members();
    SeedTeam2Members();
    SeedTeam3Members();
  }

  /** The seed store is consistent: member lists are derived by team id,
      team ids are distinct, every user is placed, every team belongs to
      the one company, and the company lists exactly the seeded teams. */
  lemma SeedStoreConsistent()
    ensures TeamsDerivedFrom(SeedUsers, SeedTeams)
    ensures DistinctTeamIds(SeedTeams)
    ensures UsersPlaced(SeedUsers, SeedTeams)
    ensures forall i :: 0 <= i < |SeedTeams| ==> SeedTeams[i].companyId == SeedCompany.id
    ensures SeedCompany.teams == SeedTeams
  {
    SeedTeamsDerived();
    SeedTeamIdsDistinct();
    SeedUsersPlaced();
  }

  /** Each seeded team lists the users that name it. */
  lemma SeedTeamsDerived()
    ensures TeamsDerivedFrom(SeedUsers, SeedTeams)
  {
  }

  /** The seeded team ids differ pairwise. */
  lemma SeedTeamIdsDistinct()
    ensures DistinctTeamIds(SeedTeams)
  {
  }

  /** Users 1-2, 3-4 and 5-6 name teams 1, 2 and 3. */
  lemma SeedUsersPlaced()
    ensures UsersPlaced(SeedUsers, SeedTeams)
  {
    forall u | u in SeedUsers
      ensures exists i :: 0 <= i < |SeedTeams| && SeedTeams[i].id == u.teamId
    {
      var k :| 0 <= k < |SeedUsers| && SeedUsers[k] == u;
      assert SeedTeams[k / 2].id == u.teamId;
    }
  }

  /** In the seed, no user has two assessments for one quality, and no
      user lacks an assessment list. */
  lemma SeedAssessmentsDistinct()
    ensures forall k :: 0 <= k < |SeedUsers| ==> SeedUsers[k].qualities.Some?
    ensures forall k :: 0 <= k < |SeedUsers| ==> DistinctQualityIds(QualitiesOf(SeedUsers[k]))
  {
  }
}

=== FILE: qualities.dfy ===
/** The fixed quality catalog, lookup by string id, and the rating labels. */
module Qualities {
  import opened Types

  /** The eight catalog entries, in display order. */
  const Catalog: seq<Quality> := [
    Quality(Leadership, "Leadership",
      "Ability to guide, inspire, and influence others towards shared goals."),
    Quality(DecisionMaking, "Decision Making",
      "Ability to make timely, well-informed choices that drive positive outcomes."),
    Quality(Teamwork, "Teamwork",
      "Ability to collaborate effectively with others to achieve common objectives."),
    Quality(Creativity, "Creativity",
      "Ability to generate innovative ideas and unique solutions to problems."),
    Quality(Communication, "Communication",
      "Ability to exchange information clearly and effectively with others."),
    Quality(ProblemSolving, "Problem Solving",
      "Ability to identify issues and develop effective solutions."),
    Quality(Adaptability, "Adaptability",
      "Ability to adjust to new conditions and respond positively to change."),
    Quality(TimeManagement, "Time Management",
      "Ability to prioritize tasks and use time efficiently.")
  ]

  const NotRated: string := "Not Rated"

  /** Distinct tags have distinct string spellings. */
  lemma TagNameInjective(p: QualityType, q: QualityType)
    requires TagName(p) == TagName(q)
    ensures p == q
  {
  }

  /** The position of a quality in the catalog: every tag has one. */
  function CatalogIndex(q: QualityType): (i: nat)
    ensures i < |Catalog| && Catalog[i].id == q
  {
    match q
    case Leadership => 0
    case DecisionMaking => 1
    case Teamwork => 2
    case Creativity => 3
    case Communication => 4
    case ProblemSolving => 5
    case Adaptability => 6
    case TimeManagement => 7
  }

  /** The catalog holds eight entries whose ids are pairwise distinct and
      cover every quality tag. */
  lemma CatalogWellFormed()
    ensures |Catalog| == 8
    ensures forall i, j :: 0 <= i < j < |Catalog| ==> Catalog[i].id != Catalog[j].id
    ensures forall q: QualityType :: Catalog[CatalogIndex(q)].id == q
  {
  }

  /** `list.find(e => e.id === id)` over a list of catalog entries, with the
      id given as a string. */
  function FindByTag(list: seq<Quality>, id: string): (r: Option<Quality>)
    ensures r.Some? ==> r.value in list && TagName(r.value.id) == id
    ensures r.None? <==> forall i :: 0 <= i < |list| ==> TagName(list[i].id) != id
    ensures r.Some? ==>
      exists k :: 0 <= k < |list| && list[k] == r.value
        && forall j :: 0 <= j < k ==> TagName(list[j].id) != id
  {
    if list == [] then None
    else if TagName(list[0].id) == id then Some(list[0])
    else FindByTag(list[1..], id)
  }

  /** `getQualityById`: the catalog entry spelled `id`, or nothing for a
      string that spells no tag. */
  function GetQualityById(id: string): (r: Option<Quality>)
    ensures r.Some? ==> r.value in Catalog && TagName(r.value.id) == id
    ensures r.None? <==> forall q: QualityType :: TagName(q) != id
  {
    var r := FindByTag(Catalog, id);
    if r.None? then
      assert forall q: QualityType :: TagName(q) != id by {
        forall q: QualityType ensures TagName(q) != id {
          assert TagName(Catalog[CatalogIndex(q)].id) != id;
        }
      }
      r
    else r
  }

  /** Looking a tag up by its own spelling yields the catalog entry for that
      tag, so the lookup is total on `QualityType`. */
  lemma GetQualityByIdTotal(q: QualityType)
    ensures GetQualityById(TagName(q)) == Some(Catalog[CatalogIndex(q)])
  {
    var r := GetQualityById(TagName(q));
    assert r.Some?;
    TagNameInjective(r.value.id, q);
    CatalogWellFormed();
    var i :| 0 <= i < |Catalog| && Catalog[i] == r.value;
    assert i == CatalogIndex(q);
  }

  /** `getRatingLabel`: the word shown under each star. */
  function GetRatingLabel(rating: int): (text: string)
    ensures 1 <= rating <= 5 <==> text != NotRated
  {
    match rating
    case 1 => "Developing"
    case 2 => "Adequate"
    case 3 => "Proficient"
    case 4 => "Strong"
    case 5 => "Excellent"
    case _ => NotRated
  }

  /** The five labels of the scale are pairwise distinct, so a label names
      its rating. */
  lemma RatingLabelsDistinct(a: RatingLevel, b: RatingLevel)
    requires GetRatingLabel(a) == GetRatingLabel(b)
    ensures a == b
  {
  }
}

=== FILE: questionnaire.dfy ===
/** The questionnaire session: pick qualities, rate them one at a time,
    submit, reset. Every transition is a total function of the state;
    `setState(prev => ...)` becomes "return the next state". */
module Questionnaire {
  import opened Types

  const InitialState: QuestionnaireState := QuestionnaireState([], 0, [], false, false)

  /** `qs.findIndex(a => a.qualityId === q)`, with "not found" as None. */
  function IndexOfQuality(qs: seq<Assessment>, q: QualityType): (r: Option<nat>)
    ensures r.Some? ==> r.value < |qs| && qs[r.value].qualityId == q
    ensures r.Some? ==> forall j :: 0 <= j < r.value ==> qs[j].qualityId != q
    ensures r.None? <==> forall j :: 0 <= j < |qs| ==> qs[j].qualityId != q
  {
    if qs == [] then None
    else if qs[0].qualityId == q then Some(0)
    else match IndexOfQuality(qs[1..], q)
      case None => None
      case Some(k) => Some(k + 1)
  }

  /** `qs.find(a => a.qualityId === q)`: the first assessment for `q`. */
  function FindAssessment(qs: seq<Assessment>, q: QualityType): Option<Assessment>
  {
    match IndexOfQuality(qs, q)
    case None => None
    case Some(k) => Some(qs[k])
  }

  /** The qualities some assessment in `qs` is about. */
  ghost function Ids(qs: seq<Assessment>): set<QualityType>
  {
    set a | a in qs :: a.qualityId
  }

  /** `selectedQualities[currentQualityIndex]`, which is `undefined` once the
      index is past the end of the selection. */
  function CurrentQuality(st: QuestionnaireState): Option<QualityType>
  {
    if st.currentQualityIndex < |st.selectedQualities|
    then Some(st.selectedQualities[st.currentQualityIndex])
    else None
  }

  /** The cursor points at a selected quality. */
  predicate InRange(st: QuestionnaireState)
  {
    st.currentQualityIndex < |st.selectedQualities|
  }

  /** A fresh draft: neutral rating, no motivation yet. */
  function NewDraft(q: QualityType, today: string): Assessment
  {
    Assessment(q, DefaultRating, "", today)
  }

  /** `selectQualities`: start rating `qs`, in the order given, from the
      first one, with one fresh draft per selected quality. The submit flags
      carry over. */
  function SelectQualities(st: QuestionnaireState, qs: seq<QualityType>, today: string): (r: QuestionnaireState)
    ensures r.selectedQualities == qs && r.currentQualityIndex == 0
    ensures |r.assessments| == |qs|
    ensures forall i :: 0 <= i < |qs| ==>
      r.assessments[i].qualityId == qs[i] && r.assessments[i].rating == DefaultRating
      && r.assessments[i].motivation == "" && r.assessments[i].date == today
    ensures r.isSubmitting == st.isSubmitting && r.isComplete == st.isComplete
  {
    st.(
      selectedQualities := qs,
      currentQualityIndex := 0,
      assessments := seq(|qs|, i requires 0 <= i < |qs| => NewDraft(qs[i], today)))
  }

  /** `updateAssessment`: the first draft for the current quality takes the
      new rating and motivation; nothing else in the state moves, and
      without such a draft nothing changes at all. */
  function UpdateAssessment(st: QuestionnaireState, rating: RatingLevel, motivation: string): (r: QuestionnaireState)
    ensures r == st.(assessments := r.assessments)
    ensures |r.assessments| == |st.assessments|
    ensures forall j :: 0 <= j < |st.assessments| ==>
      r.assessments[j] == st.assessments[j].(rating := r.assessments[j].rating, motivation := r.assessments[j].motivation)
    ensures forall j :: 0 <= j < |st.assessments| && r.assessments[j] != st.assessments[j] ==>
      CurrentQuality(st).Some? && IndexOfQuality(st.assessments, CurrentQuality(st).value) == Some(j)
    ensures forall j :: 0 <= j < |st.assessments| ==>
      (CurrentQuality(st).Some? && IndexOfQuality(st.assessments, CurrentQuality(st).value) == Some(j)) ==>
      r.assessments[j].rating == rating && r.assessments[j].motivation == motivation
  {
    match CurrentQuality(st)
    case None => st
    case Some(q) =>
      match IndexOfQuality(st.assessments, q)
      case None => st
      case Some(k) =>
        st.(assessments := st.assessments[k := st.assessments[k].(rating := rating, motivation := motivation)])
  }

  /** `isLastQuality`: the cursor is on the last selected quality. */
  function IsLastQuality(st: QuestionnaireState): (r: bool)
    ensures r <==> CurrentQuality(st).Some? && st.currentQualityIndex + 1 == |st.selectedQualities|
  {
    st.currentQualityIndex == |st.selectedQualities| - 1
  }

  /** `goToNextQuality`: advance the cursor unless it is on the last quality.
      Only the index moves. */
  function GoToNextQuality(st: QuestionnaireState): (r: QuestionnaireState)
    ensures r == st.(currentQualityIndex := r.currentQualityIndex)
    ensures IsLastQuality(st) ==> r == st
    ensures !IsLastQuality(st) ==> r.currentQualityIndex == st.currentQualityIndex + 1
  {
    if IsLastQuality(st) then st
    else st.(currentQualityIndex := st.currentQualityIndex + 1)
  }

  /** `goToPreviousQuality`: step the cursor back, stopping at 0. Only the
      index moves. */
  function GoToPreviousQuality(st: QuestionnaireState): (r: QuestionnaireState)
    ensures r == st.(currentQualityIndex := r.currentQualityIndex)
    ensures st.currentQualityIndex == 0 ==> r == st
    ensures st.currentQualityIndex > 0 ==> r.currentQualityIndex == st.currentQualityIndex - 1
  {
    st.(currentQualityIndex := if st.currentQualityIndex == 0 then 0 else st.currentQualityIndex - 1)
  }

  /** `getCurrentAssessment`: the first draft for the current quality, and
      nothing when the cursor is past the selection or no draft matches. */
  function GetCurrentAssessment(st: QuestionnaireState): (r: Option<Assessment>)
    ensures CurrentQuality(st).None? ==> r.None?
    ensures r.Some? ==> CurrentQuality(st) == Some(r.value.qualityId)
    ensures r.Some? ==>
      exists k :: 0 <= k < |st.assessments| && st.assessments[k] == r.value
        && IndexOfQuality(st.assessments, r.value.qualityId) == Some(k)
    ensures r.None? && CurrentQuality(st).Some? ==>
      forall j :: 0 <= j < |st.assessments| ==> st.assessments[j].qualityId != CurrentQuality(st).value
  {
    match CurrentQuality(st)
    case None => None
    case Some(q) => FindAssessment(st.assessments, q)
  }

  // ---------------------------------------------------------------------
  // Properties of the session transitions
  // ---------------------------------------------------------------------

  /** Right after selecting a non-empty list the screen shows a fresh draft
      for its first quality, rated 3. */
  lemma SelectThenCurrent(st: QuestionnaireState, qs: seq<QualityType>, today: string)
    requires qs != []
    ensures GetCurrentAssessment(SelectQualities(st, qs, today)) == Some(NewDraft(qs[0], today))
    ensures IsLastQuality(SelectQualities(st, qs, today)) <==> |qs| == 1
  {
    var r := SelectQualities(st, qs, today);
    assert r.assessments[0] == NewDraft(qs[0], today);
  }

  /** Updating, then reading back, gives the draft that was shown with the
      new rating and motivation. */
  lemma {:induction false} UpdateThenCurrent(st: QuestionnaireState, rating: RatingLevel, motivation: string)
    ensures GetCurrentAssessment(UpdateAssessment(st, rating, motivation))
      == match GetCurrentAssessment(st)
         case None => None
         case Some(a) => Some(a.(rating := rating, motivation := motivation))
  {
    var r := UpdateAssessment(st, rating, motivation);
    if CurrentQuality(st).Some? {
      var q := CurrentQuality(st).value;
      match IndexOfQuality(st.assessments, q)
      case None =>
      case Some(k) =>
        IndexOfQualityStable(st.assessments, r.assessments, q, k);
    }
  }

  /** Changing entries after the first match for `q`, while keeping its
      quality id, does not move that first match. */
  lemma IndexOfQualityStable(xs: seq<Assessment>, ys: seq<Assessment>, q: QualityType, k: nat)
    requires |xs| == |ys| && IndexOfQuality(xs, q) == Some(k)
    requires forall j :: 0 <= j < |xs| ==> ys[j].qualityId == xs[j].qualityId
    ensures IndexOfQuality(ys, q) == Some(k)
  {
  }

  /** Saving the same answer twice is saving it once. */
  lemma UpdateIdempotent(st: QuestionnaireState, rating: RatingLevel, motivation: string)
    ensures UpdateAssessment(UpdateAssessment(st, rating, motivation), rating, motivation)
      == UpdateAssessment(st, rating, motivation)
  {
    var r := UpdateAssessment(st, rating, motivation);
    if CurrentQuality(st).Some? {
      var q := CurrentQuality(st).value;
      match IndexOfQuality(st.assessments, q)
      case None =>
      case Some(k) =>
        IndexOfQualityStable(st.assessments, r.assessments, q, k);
    }
  }

  /** `goToNextQuality` is a no-op exactly on the last quality. */
  lemma NextFixedExactlyAtLast(st: QuestionnaireState)
    ensures GoToNextQuality(st) == st <==> IsLastQuality(st)
  {
  }

  /** With a non-empty selection and the cursor in range, both navigation
      steps keep it in range. */
  lemma NavigationStaysInRange(st: QuestionnaireState)
    requires InRange(st)
    ensures InRange(GoToNextQuality(st))
    ensures InRange(GoToPreviousQuality(st))
  {
  }

  /** Stepping forward then back returns to the same quality, unless the
      forward step was the no-op at the end. */
  lemma NextThenPrevious(st: QuestionnaireState)
    requires !IsLastQuality(st)
    ensures GoToPreviousQuality(GoToNextQuality(st)) == st
  {
  }

  /** Stepping back then forward returns to the same quality, unless the
      back step was the no-op at the start. */
  lemma PreviousThenNext(st: QuestionnaireState)
    requires InRange(st) && st.currentQualityIndex > 0
    ensures GoToNextQuality(GoToPreviousQuality(st)) == st
  {
  }

  /** With nothing selected the "last" test compares against -1, so it never
      holds and the forward step always advances. */
  lemma NextOnEmptySelectionAdvances(st: QuestionnaireState)
    requires st.selectedQualities == []
    ensures !IsLastQuality(st)
    ensures GoToNextQuality(st).currentQualityIndex == st.currentQualityIndex + 1
    ensures GetCurrentAssessment(st).None?
  {
  }

  // ---------------------------------------------------------------------
  // Submission
  // ---------------------------------------------------------------------

  /** Replace-or-append: `a` takes the place of the first entry for its
      quality, or goes at the end when there is none. */
  function Upsert(list: seq<Assessment>, a: Assessment): (r: seq<Assessment>)
    ensures FindAssessment(r, a.qualityId) == Some(a)
    ensures |list| <= |r| <= |list| + 1
    ensures |r| == |list| + 1 <==> a.qualityId !in Ids(list)
    ensures forall j :: 0 <= j < |list| ==> r[j].qualityId == list[j].qualityId
    ensures forall j :: 0 <= j < |list| && IndexOfQuality(list, a.qualityId) != Some(j) ==> r[j] == list[j]
    ensures Ids(r) == Ids(list) + {a.qualityId}
  {
    match IndexOfQuality(list, a.qualityId)
    case None =>
      var r := list + [a];
      IndexOfQualityAppend(list, a);
      assert a.qualityId !in Ids(list);
      r
    case Some(k) =>
      var r := list[k := a];
      IndexOfQualityStable(list, r, a.qualityId, k);
      assert list[k] in list;
      assert Ids(r) == Ids(list) by {
        forall x | x in Ids(list) ensures x in Ids(r) {
          var b :| b in list && b.qualityId == x;
          var j :| 0 <= j < |list| && list[j] == b;
          assert r[j].qualityId == x;
        }
      }
      r
  }

  /** Appending an assessment for a quality not yet listed makes it the
      first (and only) match. */
  lemma IndexOfQualityAppend(list: seq<Assessment>, a: Assessment)
    requires IndexOfQuality(list, a.qualityId).None?
    ensures IndexOfQuality(list + [a], a.qualityId) == Some(|list|)
    ensures a.qualityId !in Ids(list)
  {
    assert (list + [a])[|list|] == a;
  }

  /** An upsert for one quality leaves what is found for every other
      quality untouched. */
  lemma UpsertKeepsOthers(list: seq<Assessment>, a: Assessment, q: QualityType)
    requires q != a.qualityId
    ensures FindAssessment(Upsert(list, a), q) == FindAssessment(list, q)
  {
    var r := Upsert(list, a);
    var i := IndexOfQuality(list, q);
    var k := IndexOfQuality(r, q);
    if i.Some? {
      assert r[i.value] == list[i.value];
    }
  }

  /** The merge at submission: each draft, in order, is replace-or-appended
      into the existing list. */
  function MergeAssessments(existing: seq<Assessment>, drafts: seq<Assessment>): (r: seq<Assessment>)
    ensures |existing| <= |r|
    ensures forall j :: 0 <= j < |existing| ==> r[j].qualityId == existing[j].qualityId
    ensures forall j :: 0 <= j < |existing| && existing[j].qualityId !in Ids(drafts) ==> r[j] == existing[j]
    ensures Ids(r) == Ids(existing) + Ids(drafts)
    decreases |drafts|
  {
    if drafts == [] then existing
    else
      assert Ids(drafts) == {drafts[0].qualityId} + Ids(drafts[1..]) by {
        assert drafts == [drafts[0]] + drafts[1..];
      }
      MergeAssessments(Upsert(existing, drafts[0]), drafts[1..])
  }

  /** Drafts for qualities the list does not hold yet are appended at the
      end, in the order of the drafts. */
  lemma {:induction false} MergeAppendsNewInOrder(existing: seq<Assessment>, drafts: seq<Assessment>)
    requires DistinctQualityIds(drafts)
    requires forall d :: d in drafts ==> d.qualityId !in Ids(existing)
    ensures MergeAssessments(existing, drafts) == existing + drafts
    decreases |drafts|
  {
    if drafts != [] {
      var d := drafts[0];
      DistinctTail(drafts);
      UpsertAppendsNew(existing, d);
      var grown := existing + [d];
      forall e | e in drafts[1..] ensures e.qualityId !in Ids(grown) {
        assert e in drafts;
        assert e.qualityId in Ids(drafts[1..]);
      }
      assert MergeAssessments(existing, drafts) == MergeAssessments(grown, drafts[1..]);
      MergeAppendsNewInOrder(grown, drafts[1..]);
      ShiftHead(existing, drafts);
    }
  }

  /** Moving the head of `ys` onto the end of `xs` keeps the concatenation. */
  lemma ShiftHead<T>(xs: seq<T>, ys: seq<T>)
    requires ys != []
    ensures (xs + [ys[0]]) + ys[1..] == xs + ys
  {
  }

  /** A draft for a quality the list does not hold goes at the end. */
  lemma UpsertAppendsNew(list: seq<Assessment>, a: Assessment)
    requires a.qualityId !in Ids(list)
    ensures Upsert(list, a) == list + [a]
    ensures Ids(list + [a]) == Ids(list) + {a.qualityId}
  {
    assert IndexOfQuality(list, a.qualityId).None? by {
      forall j | 0 <= j < |list| ensures list[j].qualityId != a.qualityId {
        assert list[j] in list;
      }
    }
    forall x | x in list + [a] ensures x in list || x == a {
    }
  }

  /** Drafts for distinct qualities: the tail holds no repeat either, and
      none for the head's quality. */
  lemma DistinctTail(drafts: seq<Assessment>)
    requires drafts != [] && DistinctQualityIds(drafts)
    ensures DistinctQualityIds(drafts[1..])
    ensures drafts[0].qualityId !in Ids(drafts[1..])
    ensures Ids(drafts) == {drafts[0].qualityId} + Ids(drafts[1..])
  {
    var rest := drafts[1..];
    forall i, j | 0 <= i < j < |rest| ensures rest[i].qualityId != rest[j].qualityId {
      assert rest[i] == drafts[i + 1] && rest[j] == drafts[j + 1];
    }
    assert drafts == [drafts[0]] + rest;
  }

  /** With drafts for distinct qualities, every draft ends up as the entry
      found for its quality. */
  lemma {:induction false} MergeStoresEveryDraft(existing: seq<Assessment>, drafts: seq<Assessment>)
    requires DistinctQualityIds(drafts)
    ensures forall d :: d in drafts ==> FindAssessment(MergeAssessments(existing, drafts), d.qualityId) == Some(d)
    decreases |drafts|
  {
    if drafts != [] {
      var d0 := drafts[0];
      var rest := drafts[1..];
      var next := Upsert(existing, d0);
      DistinctTail(drafts);
      MergeStoresEveryDraft(next, rest);
      MergeKeepsUntouched(next, rest, d0.qualityId);
      assert forall d :: d in drafts ==> d == d0 || d in rest;
    }
  }

  /** Set arithmetic behind one merge step: with `d` taken out of `drafts`
      and added to `existing`, the count of new ids drops by one exactly
      when `d` was new. */
  lemma NewCountStep(drafts: set<QualityType>, rest: set<QualityType>, existing: set<QualityType>, d: QualityType)
    requires drafts == {d} + rest && d !in rest
    ensures |drafts - existing| == (if d in existing then 0 else 1) + |rest - (existing + {d})|
  {
    var added := rest - (existing + {d});
    assert rest - existing == added;
    if d in existing {
      assert drafts - existing == added;
    } else {
      assert drafts - existing == added + {d};
      assert d !in added;
    }
  }

  /** The qualities still new to `existing` once the head draft is merged. */
  lemma NewIdsStep(existing: seq<Assessment>, drafts: seq<Assessment>)
    requires drafts != [] && DistinctQualityIds(drafts)
    ensures |Ids(drafts) - Ids(existing)|
      == (if drafts[0].qualityId in Ids(existing) then 0 else 1)
        + |Ids(drafts[1..]) - Ids(Upsert(existing, drafts[0]))|
  {
    DistinctTail(drafts);
    NewCountStep(Ids(drafts), Ids(drafts[1..]), Ids(existing), drafts[0].qualityId);
  }

  /** Merging drafts for distinct qualities grows the list by exactly the
      number of those qualities it did not yet hold. */
  lemma {:induction false} MergeLength(existing: seq<Assessment>, drafts: seq<Assessment>)
    requires DistinctQualityIds(drafts)
    ensures |MergeAssessments(existing, drafts)| == |existing| + |Ids(drafts) - Ids(existing)|
    decreases |drafts|
  {
    if drafts == [] {
      assert Ids(drafts) == {};
    } else {
      DistinctTail(drafts);
      var next := Upsert(existing, drafts[0]);
      MergeLength(next, drafts[1..]);
      NewIdsStep(existing, drafts);
    }
  }

  /** Merging drafts that are all about other qualities leaves what is found
      for `q` as it was. */
  lemma {:induction false} MergeKeepsUntouched(existing: seq<Assessment>, drafts: seq<Assessment>, q: QualityType)
    requires q !in Ids(drafts)
    ensures FindAssessment(MergeAssessments(existing, drafts), q) == FindAssessment(existing, q)
    decreases |drafts|
  {
    if drafts != [] {
      assert drafts[0] in drafts;
      assert Ids(drafts[1..]) <= Ids(drafts) by {
        forall x | x in Ids(drafts[1..]) ensures x in Ids(drafts) {
          var b :| b in drafts[1..] && b.qualityId == x;
        }
      }
      UpsertKeepsOthers(existing, drafts[0], q);
      MergeKeepsUntouched(Upsert(existing, drafts[0]), drafts[1..], q);
    }
  }

  /** When both lists are free of repeated qualities, so is the merge. */
  lemma {:induction false} MergeKeepsDistinct(existing: seq<Assessment>, drafts: seq<Assessment>)
    requires DistinctQualityIds(existing)
    ensures DistinctQualityIds(MergeAssessments(existing, drafts))
    decreases |drafts|
  {
    if drafts != [] {
      UpsertKeepsDistinct(existing, drafts[0]);
      MergeKeepsDistinct(Upsert(existing, drafts[0]), drafts[1..]);
    }
  }

  lemma UpsertKeepsDistinct(list: seq<Assessment>, a: Assessment)
    requires DistinctQualityIds(list)
    ensures DistinctQualityIds(Upsert(list, a))
  {
    var r := Upsert(list, a);
    if |r| == |list| + 1 {
      assert r == list + [a] by {
        assert r[..|list|] == list by {
          forall j | 0 <= j < |list| ensures r[j] == list[j] {
            assert list[j] in list;
          }
        }
        assert r[|list|] == a;
        assert r == r[..|list|] + [r[|list|]];
      }
      forall j | 0 <= j < |list| ensures list[j].qualityId != a.qualityId {
        assert list[j] in list;
      }
    }
  }

  /** `submitQuestionnaire`, first half: mark the session as submitting. */
  function BeginSubmit(st: QuestionnaireState): (r: QuestionnaireState)
    ensures r.isSubmitting
    ensures PhaseOf(r) == PhaseOf(st) && GetCurrentAssessment(r) == GetCurrentAssessment(st)
    ensures r.assessments == st.assessments && r.isComplete == st.isComplete
    ensures r.selectedQualities == st.selectedQualities && r.currentQualityIndex == st.currentQualityIndex
  {
    st.(isSubmitting := true)
  }

  /** `submitQuestionnaire`, deferred half: the merge is done. */
  function FinishSubmit(st: QuestionnaireState): (r: QuestionnaireState)
    ensures !r.isSubmitting && PhaseOf(r) == Complete
    ensures r.selectedQualities == st.selectedQualities && r.currentQualityIndex == st.currentQualityIndex
    ensures r.assessments == st.assessments
  {
    st.(isSubmitting := false, isComplete := true)
  }

  /** `resetQuestionnaire`. */
  function ResetQuestionnaire(st: QuestionnaireState): (r: QuestionnaireState)
    ensures PhaseOf(r) == SelectingQualities && r.currentQualityIndex == 0
    ensures r.assessments == [] && GetCurrentAssessment(r).None?
    ensures !r.isSubmitting && !r.isComplete
  {
    InitialState
  }

  /** What the questionnaire screen shows for a state. */
  datatype Phase = SelectingQualities | RatingQuality(index: nat) | Complete

  function PhaseOf(st: QuestionnaireState): (r: Phase)
    ensures r == Complete <==> st.isComplete
    ensures r == SelectingQualities <==> !st.isComplete && st.selectedQualities == []
    ensures r.RatingQuality? ==> r.index == st.currentQualityIndex && st.selectedQualities != []
  {
    if st.isComplete then Complete
    else if st.selectedQualities == [] then SelectingQualities
    else RatingQuality(st.currentQualityIndex)
  }

  /** The session's life cycle: selecting a non-empty list starts rating at
      the first quality; submitting passes through "submitting" and ends
      complete with selection, cursor and drafts intact; reset returns to
      the initial state, which shows the selection screen. */
  lemma SessionLifecycle(st: QuestionnaireState, qs: seq<QualityType>, today: string)
    ensures !st.isComplete && qs != [] ==> PhaseOf(SelectQualities(st, qs, today)) == RatingQuality(0)
    ensures BeginSubmit(st).isSubmitting && !BeginSubmit(st).isComplete == !st.isComplete
    ensures var done := FinishSubmit(BeginSubmit(st));
      && !done.isSubmitting && done.isComplete && PhaseOf(done) == Complete
      && done.selectedQualities == st.selectedQualities
      && done.currentQualityIndex == st.currentQualityIndex
      && done.assessments == st.assessments
    ensures ResetQuestionnaire(st) == InitialState
    ensures PhaseOf(ResetQuestionnaire(st)) == SelectingQualities
    ensures GetCurrentAssessment(ResetQuestionnaire(st)).None? && !IsLastQuality(ResetQuestionnaire(st))
  {
  }
}

=== FILE: rating_form.dfy ===
/** The rating screen for one quality: its initial values, the motivation
    gate, the rating options and the dispatch of the primary button. */
module RatingForm {
  import opened Types
  import opened Text
  import opened Qualities
  import opened Questionnaire

  /** The shortest trimmed motivation the form accepts. */
  const MinMotivation: nat := 10

  /** JavaScript `v || fallback` on a number: `undefined` and 0 are falsy. */
  function NumberOr(v: Option<int>, fallback: int): int
  {
    if v.Some? && v.value != 0 then v.value else fallback
  }

  /** JavaScript `v || fallback` on a string: `undefined` and "" are falsy. */
  function StringOr(v: Option<string>, fallback: string): string
  {
    if v.Some? && v.value != "" then v.value else fallback
  }

  /** `initialAssessment?.rating || 3`: a rating is never 0, so the default
      applies exactly when no assessment is given. */
  function InitialRating(init: Option<Assessment>): (r: RatingLevel)
    ensures init.Some? ==> r == init.value.rating
    ensures init.None? ==> r == DefaultRating
  {
    NumberOr(match init case None => None case Some(a) => Some(a.rating as int), DefaultRating)
  }

  /** `initialAssessment?.motivation || ''`: an empty motivation falls back
      to the same empty string, so the form shows the given text or "". */
  function InitialMotivation(init: Option<Assessment>): (m: string)
    ensures init.Some? ==> m == init.value.motivation
    ensures init.None? ==> m == ""
  {
    StringOr(match init case None => None case Some(a) => Some(a.motivation), "")
  }

  /** `isSubmitDisabled`: fewer than ten UTF-16 units once trimmed. */
  function IsSubmitDisabled(motivation: string): (r: bool)
    ensures Utf16Length(motivation) < MinMotivation ==> r
    ensures (forall k :: 0 <= k < |motivation| ==> IsWhiteSpace(motivation[k])) ==> r
    ensures !r ==> Trim(motivation) != []
  {
    TrimShortens(motivation);
    assert (forall k :: 0 <= k < |motivation| ==> IsWhiteSpace(motivation[k])) ==> Trim(motivation) == [] by {
      if forall k :: 0 <= k < |motivation| ==> IsWhiteSpace(motivation[k]) {
        AllWhiteSpaceTrimsToEmpty(motivation);
      }
    }
    Utf16Length(Trim(motivation)) < MinMotivation
  }

  /** The counter under the text box, which counts the untrimmed text. */
  function CounterLabel(motivation: string): string
  {
    NatToString(Utf16Length(motivation)) + " characters (minimum 10)"
  }

  /** The gate is at least as strict as the counter suggests: whenever
      submitting is allowed the counter shows ten or more. */
  lemma GateStricterThanCounter(motivation: string)
    ensures !IsSubmitDisabled(motivation) ==> Utf16Length(motivation) >= MinMotivation
    ensures Utf16Length(motivation) < MinMotivation ==> IsSubmitDisabled(motivation)
  {
    TrimShortens(motivation);
  }

  /** Ten spaces: the counter reads ten. */
  lemma TenSpacesCount()
    ensures CounterLabel(TenSpaces) == "10 characters (minimum 10)"
  {
    TenSpacesLength();
    TenDigits();
    CounterShowsTen(TenSpaces);
  }

  lemma CounterShowsTen(m: string)
    requires Utf16Length(m) == 10 && NatToString(10) == "10"
    ensures CounterLabel(m) == "10 characters (minimum 10)"
  {
  }

  lemma TenSpacesLength()
    ensures Utf16Length(TenSpaces) == 10
  {
    assert forall k :: 0 <= k < |TenSpaces| ==> TenSpaces[k] as int <= 0xFFFF;
  }

  lemma TenDigits()
    ensures NatToString(10) == "10"
  {
    assert NatToString(10) == NatToString(1) + [DigitChar(0)];
  }

  /** Ten spaces trim to nothing. */
  lemma TenSpacesDisabled()
    ensures IsSubmitDisabled(TenSpaces)
  {
    assert forall k :: 0 <= k < |TenSpaces| ==> TenSpaces[k] == ' ';
    AllWhiteSpaceTrimsToEmpty(TenSpaces);
  }

  const TenSpaces: string := "          "

  /** The two disagree on padding: ten spaces show "10 characters" yet
      cannot be submitted. */
  lemma TenSpacesShowTenButStayDisabled()
    ensures CounterLabel(TenSpaces) == "10 characters (minimum 10)"
    ensures IsSubmitDisabled(TenSpaces)
  {
    TenSpacesCount();
    TenSpacesDisabled();
  }

  /** A motivation of ten or more plain characters with no white space at
      either end is accepted. */
  lemma PlainTextOfTenAccepted(motivation: string)
    requires |motivation| >= MinMotivation
    requires !IsWhiteSpace(motivation[0]) && !IsWhiteSpace(motivation[|motivation| - 1])
    ensures !IsSubmitDisabled(motivation)
  {
    TrimOfTrimmed(motivation);
  }

  /** What the primary button reports, in order. */
  datatype FormEvent = OnComplete(rating: RatingLevel, motivation: string) | OnSubmit

  /** `handleSubmit`: report the entered answer, then, on the last quality,
      ask for submission. */
  function HandleSubmit(isLast: bool, rating: RatingLevel, motivation: string): (events: seq<FormEvent>)
    ensures |events| >= 1 && events[0] == OnComplete(rating, motivation)
    ensures OnSubmit in events <==> isLast
    ensures isLast ==> events[|events| - 1] == OnSubmit
    ensures |events| == (if isLast then 2 else 1)
  {
    if isLast then [OnComplete(rating, motivation), OnSubmit]
    else [OnComplete(rating, motivation)]
  }

  /** The five star options, left to right. */
  const RatingOptions: seq<RatingLevel> := [1, 2, 3, 4, 5]

  /** Every rating is offered exactly once, in increasing order, each with a
      label of its own that is a real rating word. */
  lemma RatingOptionsComplete()
    ensures forall r: RatingLevel :: r in RatingOptions
    ensures forall i :: 0 <= i < |RatingOptions| ==> RatingOptions[i] == i + 1
    ensures forall i, j :: 0 <= i < j < |RatingOptions| ==>
      GetRatingLabel(RatingOptions[i]) != GetRatingLabel(RatingOptions[j])
    ensures forall i :: 0 <= i < |RatingOptions| ==> GetRatingLabel(RatingOptions[i]) != NotRated
  {
    forall r: RatingLevel ensures r in RatingOptions {
      assert RatingOptions[r - 1] == r;
    }
  }

  /** Star `value` is filled when the rating reaches it. */
  predicate StarFilled(rating: RatingLevel, value: RatingLevel)
  {
    rating >= value
  }

  /** The number of filled stars among `options`. */
  function FilledStars(rating: RatingLevel, options: seq<RatingLevel>): nat
  {
    if options == [] then 0
    else (if StarFilled(rating, options[0]) then 1 else 0) + FilledStars(rating, options[1..])
  }

  /** A rating of n fills exactly the first n stars. */
  lemma FilledStarsIsRating(rating: RatingLevel)
    ensures FilledStars(rating, RatingOptions) == rating
    ensures forall i :: 0 <= i < |RatingOptions| ==> (StarFilled(rating, RatingOptions[i]) <==> i < rating)
  {
    var o := RatingOptions;
    assert o[1..] == [2, 3, 4, 5] && o[2..] == [3, 4, 5] && o[3..] == [4, 5] && o[4..] == [5];
    assert [5][1..] == [];
  }

  /** The "Previous" button shows when the cursor is not on the first
      quality. */
  predicate ShowPrevious(st: QuestionnaireState)
  {
    !(st.currentQualityIndex == 0)
  }

  /** The button is offered exactly when pressing it would move the
      cursor. */
  lemma PreviousOfferedIffItMoves(st: QuestionnaireState)
    ensures ShowPrevious(st) <==> GoToPreviousQuality(st) != st
  {
  }

  /** The primary button's caption. */
  function PrimaryCaption(isLast: bool): (text: string)
  {
    if isLast then "Submit Assessment" else "Next Quality"
  }

  /** The caption announces submission exactly when the button will ask for
      it. */
  lemma CaptionMatchesDispatch(isLast: bool, rating: RatingLevel, motivation: string)
    ensures PrimaryCaption(isLast) == "Submit Assessment" <==> OnSubmit in HandleSubmit(isLast, rating, motivation)
  {
  }

  /** Coming back to a quality after answering it shows the answer given:
      whether the cursor stays, steps forward and back, or steps back and
      forward, the form opens on the stored rating and motivation. */
  lemma {:induction false} RevisitShowsAnswer(st: QuestionnaireState, rating: RatingLevel, motivation: string)
    requires GetCurrentAssessment(st).Some?
    ensures var back := GetCurrentAssessment(UpdateAssessment(st, rating, motivation));
      InitialRating(back) == rating && InitialMotivation(back) == motivation
    ensures !IsLastQuality(st) ==>
      var back := GetCurrentAssessment(GoToPreviousQuality(GoToNextQuality(UpdateAssessment(st, rating, motivation))));
      InitialRating(back) == rating && InitialMotivation(back) == motivation
    ensures st.currentQualityIndex > 0 ==>
      var back := GetCurrentAssessment(GoToNextQuality(GoToPreviousQuality(UpdateAssessment(st, rating, motivation))));
      InitialRating(back) == rating && InitialMotivation(back) == motivation
  {
    var saved := UpdateAssessment(st, rating, motivation);
    UpdateThenCurrent(st, rating, motivation);
    if !IsLastQuality(st) {
      NextThenPrevious(saved);
    }
    if st.currentQualityIndex > 0 {
      PreviousThenNext(saved);
    }
  }

  /** The first form after a selection opens on the defaults: rating 3 and
      no motivation, which the gate rejects. */
  lemma {:induction false} FirstFormOpensOnDefaults(st: QuestionnaireState, qs: seq<QualityType>, today: string)
    requires qs != []
    ensures var init := GetCurrentAssessment(SelectQualities(st, qs, today));
      InitialRating(init) == DefaultRating && InitialMotivation(init) == ""
      && IsSubmitDisabled(InitialMotivation(init))
  {
    SelectThenCurrent(st, qs, today);
    assert Utf16Length("") == 0;
  }
}

=== FILE: selection.dfy ===
/** The quality-selection screen: a checklist over the catalog whose
    selection is toggled one quality at a time, and the continue gate. */
module Selection {
  import opened Types
  import opened Text

  /** No quality is listed twice. */
  ghost predicate NoDup(sel: seq<QualityType>)
  {
    forall i, j :: 0 <= i < j < |sel| ==> sel[i] != sel[j]
  }

  /** `prev.filter(id => id !== q)`: every entry except those equal to `q`,
      in their original order. */
  function Remove(sel: seq<QualityType>, q: QualityType): (r: seq<QualityType>)
    ensures |r| <= |sel|
    ensures q !in sel ==> r == sel
    ensures forall x :: x in r <==> x in sel && x != q
  {
    if sel == [] then []
    else (if sel[0] == q then [] else [sel[0]]) + Remove(sel[1..], q)
  }

  /** Filtering distributes over concatenation. */
  lemma {:induction false} RemoveAppend(a: seq<QualityType>, b: seq<QualityType>, q: QualityType)
    ensures Remove(a + b, q) == Remove(a, q) + Remove(b, q)
  {
    if a == [] {
      assert a + b == b;
    } else {
      assert (a + b)[1..] == a[1..] + b;
      RemoveAppend(a[1..], b, q);
    }
  }

  /** Removing a quality that does not occur changes nothing. */
  lemma RemoveAbsent(s: seq<QualityType>, q: QualityType)
    requires forall k :: 0 <= k < |s| ==> s[k] != q
    ensures Remove(s, q) == s
  {
    assert q !in s;
  }

  /** In a list without repeats, a quality occurs only in its own slot. */
  lemma NoDupOnlySlot(sel: seq<QualityType>, i: nat)
    requires NoDup(sel) && i < |sel|
    ensures forall k :: 0 <= k < |sel| && k != i ==> sel[k] != sel[i]
  {
    forall k | 0 <= k < |sel| && k != i ensures sel[k] != sel[i] {
      if k < i {
        assert sel[k] != sel[i];
      } else {
        assert sel[i] != sel[k];
      }
    }
  }

  /** When `sel[i]` occurs only in slot `i`, removing it cuts out exactly that
      slot; everything else keeps its relative order. */
  lemma RemoveCutsOneSlot(sel: seq<QualityType>, i: nat)
    requires i < |sel|
    requires forall k :: 0 <= k < |sel| && k != i ==> sel[k] != sel[i]
    ensures Remove(sel, sel[i]) == sel[..i] + sel[i + 1..]
  {
    var q := sel[i];
    var pre := sel[..i];
    var post := sel[i + 1..];
    forall k | 0 <= k < |pre| ensures pre[k] != q {
      assert pre[k] == sel[k];
    }
    RemoveAbsent(pre, q);
    forall k | 0 <= k < |post| ensures post[k] != q {
      assert post[k] == sel[i + 1 + k];
    }
    RemoveAbsent(post, q);
    RemoveHead(post, q);
    SplitAround(sel, i);
    RemoveAppend(pre, [q] + post, q);
  }

  lemma SplitAround(sel: seq<QualityType>, i: nat)
    requires i < |sel|
    ensures sel == sel[..i] + ([sel[i]] + sel[i + 1..])
  {
    assert sel[i..] == [sel[i]] + sel[i + 1..];
    assert sel == sel[..i] + sel[i..];
  }

  lemma RemoveHead(post: seq<QualityType>, q: QualityType)
    ensures Remove([q] + post, q) == Remove(post, q)
  {
    assert ([q] + post)[1..] == post;
  }

  /** Cutting one slot out of a list without repeats leaves none. */
  lemma NoDupCut(sel: seq<QualityType>, i: nat)
    requires NoDup(sel) && i < |sel|
    ensures NoDup(sel[..i] + sel[i + 1..])
  {
    var r := sel[..i] + sel[i + 1..];
    forall a, b | 0 <= a < b < |r| ensures r[a] != r[b] {
      var a' := if a < i then a else a + 1;
      var b' := if b < i then b else b + 1;
      assert r[a] == sel[a'] && r[b] == sel[b'];
      assert a' < b';
    }
  }

  /** Appending a quality not yet listed keeps the list without repeats. */
  lemma NoDupSnoc(sel: seq<QualityType>, q: QualityType)
    requires NoDup(sel) && q !in sel
    ensures NoDup(sel + [q])
  {
    var r := sel + [q];
    forall a, b | 0 <= a < b < |r| ensures r[a] != r[b] {
      if b < |sel| {
        assert r[a] == sel[a] && r[b] == sel[b];
      } else {
        assert r[a] == sel[a];
      }
    }
  }

  /** Filtering out a quality that occurs shortens the list. */
  lemma {:induction false} RemovePresentShortens(sel: seq<QualityType>, q: QualityType)
    requires q in sel
    ensures |Remove(sel, q)| < |sel|
  {
    if sel[0] != q {
      assert q in sel[1..];
      RemovePresentShortens(sel[1..], q);
    }
  }

  /** `toggleQuality`: a selected quality is filtered out, an unselected one
      goes at the end. */
  function Toggle(sel: seq<QualityType>, q: QualityType): (r: seq<QualityType>)
    ensures q in r <==> q !in sel
    ensures forall x :: x != q ==> (x in r <==> x in sel)
    ensures q !in sel ==> r == sel + [q]
    ensures q in sel ==> |r| < |sel|
  {
    if q in sel then
      RemovePresentShortens(sel, q);
      Remove(sel, q)
    else sel + [q]
  }

  /** Toggling a selected quality in a list without repeats removes its
      one slot and keeps the order of the rest. */
  lemma ToggleOffKeepsOrder(sel: seq<QualityType>, i: nat)
    requires NoDup(sel) && i < |sel|
    ensures Toggle(sel, sel[i]) == sel[..i] + sel[i + 1..]
  {
    NoDupOnlySlot(sel, i);
    RemoveCutsOneSlot(sel, i);
  }

  /** Toggling never introduces a repeat. */
  lemma ToggleKeepsNoDup(sel: seq<QualityType>, q: QualityType)
    requires NoDup(sel)
    ensures NoDup(Toggle(sel, q))
  {
    if q in sel {
      var i :| 0 <= i < |sel| && sel[i] == q;
      ToggleOffKeepsOrder(sel, i);
      NoDupCut(sel, i);
    } else {
      NoDupSnoc(sel, q);
    }
  }

  /** Toggling an unselected quality on and off again restores the list. */
  lemma ToggleTwiceRestores(sel: seq<QualityType>, q: QualityType)
    requires q !in sel
    ensures Toggle(Toggle(sel, q), q) == sel
  {
    RemoveAppend(sel, [q], q);
    assert Remove([q], q) == [] + Remove([], q);
  }

  /** The selection after a run of taps, starting from `sel`. */
  function ToggleAll(sel: seq<QualityType>, taps: seq<QualityType>): seq<QualityType>
    decreases |taps|
  {
    if taps == [] then sel else ToggleAll(Toggle(sel, taps[0]), taps[1..])
  }

  /** The screen starts with nothing selected, so whatever the user taps,
      the selection never lists a quality twice. */
  lemma {:induction false} ToggleAllKeepsNoDup(sel: seq<QualityType>, taps: seq<QualityType>)
    requires NoDup(sel)
    ensures NoDup(ToggleAll(sel, taps))
    decreases |taps|
  {
    if taps != [] {
      ToggleKeepsNoDup(sel, taps[0]);
      ToggleAllKeepsNoDup(Toggle(sel, taps[0]), taps[1..]);
    }
  }

  lemma ReachableSelectionNoDup(taps: seq<QualityType>)
    ensures NoDup(ToggleAll([], taps))
  {
    ToggleAllKeepsNoDup([], taps);
  }

  /** A selection without repeats never exceeds the eight catalog qualities. */
  lemma {:induction false} NoDupAtMostEight(sel: seq<QualityType>)
    requires NoDup(sel)
    ensures |sel| <= 8
  {
    var all := {Leadership, DecisionMaking, Teamwork, Creativity, Communication,
                ProblemSolving, Adaptability, TimeManagement};
    forall x: QualityType ensures x in all {
      match x
      case Leadership =>
      case DecisionMaking =>
      case Teamwork =>
      case Creativity =>
      case Communication =>
      case ProblemSolving =>
      case Adaptability =>
      case TimeManagement =>
    }
    assert |all| == 8;
    DistinctCardinality(sel);
    assert (set x | x in sel) <= all;
    SubsetCardinality((set x | x in sel), all);
  }

  lemma {:induction false} DistinctCardinality(sel: seq<QualityType>)
    requires NoDup(sel)
    ensures |set x | x in sel| == |sel|
    decreases |sel|
  {
    if sel != [] {
      var rest := sel[1..];
      assert NoDup(rest) by {
        forall i, j | 0 <= i < j < |rest| ensures rest[i] != rest[j] {
          assert rest[i] == sel[i + 1] && rest[j] == sel[j + 1];
        }
      }
      DistinctCardinality(rest);
      assert sel[0] !in rest;
      assert (set x | x in sel) == (set x | x in rest) + {sel[0]};
    }
  }

  lemma SubsetCardinality(a: set<QualityType>, b: set<QualityType>)
    requires a <= b
    ensures |a| <= |b|
  {
    assert b == a + (b - a);
  }

  /** `handleContinue`: the selection is handed on, unchanged, only when it
      is not empty. */
  function HandleContinue(sel: seq<QualityType>): (r: Option<seq<QualityType>>)
    ensures r.Some? <==> |sel| > 0
    ensures r.Some? ==> r.value == sel
  {
    if |sel| > 0 then Some(sel) else None
  }

  /** The continue button is disabled when nothing is selected. */
  predicate ContinueDisabled(sel: seq<QualityType>)
  {
    |sel| == 0
  }

  /** The continue button's caption, `Continue with ${n} selected`. */
  function ContinueLabel(sel: seq<QualityType>): string
  {
    "Continue with " + NatToString(|sel|) + " selected"
  }

  /** The button is enabled exactly when pressing it hands the selection on,
      and its caption carries the selection's size: the digits between the
      fixed prefix and suffix read back as that size. */
  lemma ContinueGate(sel: seq<QualityType>)
    ensures !ContinueDisabled(sel) <==> HandleContinue(sel).Some?
    ensures var text := ContinueLabel(sel);
      && |text| > 23
      && text[..14] == "Continue with "
      && text[|text| - 9..] == " selected"
      && ParseDecimal(text[14..|text| - 9]) == |sel|
  {
    var digits := NatToString(|sel|);
    var text := ContinueLabel(sel);
    assert text[14..|text| - 9] == digits;
    ParseNatToString(|sel|);
  }

  /** Two selections with the same caption have the same size. */
  lemma ContinueLabelInjective(a: seq<QualityType>, b: seq<QualityType>)
    requires ContinueLabel(a) == ContinueLabel(b)
    ensures |a| == |b|
  {
    ContinueGate(a);
    ContinueGate(b);
  }
}

=== FILE: submission.dfy ===
/** One press of the rating screen's primary button, end to end: the form's
    events are applied to the session, and on the last quality the drafts
    are merged into the signed-in user's stored assessments. */
module Submission {
  import opened Types
  import opened Questionnaire
  import opened MockStore
  import opened RatingForm
  import Selection

  /** What the app holds across screens: the store's users and the session. */
  datatype World = World(users: seq<User>, session: QuestionnaireState)

  /** The questionnaire screen's `handleComplete`: save the answer, then step
      forward. */
  function HandleComplete(st: QuestionnaireState, rating: RatingLevel, motivation: string): (r: QuestionnaireState)
    ensures r.selectedQualities == st.selectedQualities
    ensures r.assessments == UpdateAssessment(st, rating, motivation).assessments
    ensures IsLastQuality(st) ==> r.currentQualityIndex == st.currentQualityIndex
    ensures !IsLastQuality(st) ==> r.currentQualityIndex == st.currentQualityIndex + 1
    ensures r.isSubmitting == st.isSubmitting && r.isComplete == st.isComplete
  {
    GoToNextQuality(UpdateAssessment(st, rating, motivation))
  }

  /** The assessments the store currently holds for user `id`. */
  function StoredQualities(users: seq<User>, id: string): seq<Assessment>
  {
    match IndexOfUser(users, id)
    case None => []
    case Some(k) => QualitiesOf(users[k])
  }

  /** Looking users up by id is unaffected by changes that keep every id. */
  lemma IndexOfUserStable(xs: seq<User>, ys: seq<User>, id: string)
    requires |xs| == |ys|
    requires forall j :: 0 <= j < |xs| ==> ys[j].id == xs[j].id
    ensures IndexOfUser(ys, id) == IndexOfUser(xs, id)
  {
  }

  /** The merge as it should be: the drafts go into what the store holds for
      the user right now. */
  function StoreLatest(users: seq<User>, id: string, drafts: seq<Assessment>): (r: seq<User>)
    ensures |r| == |users|
    ensures IndexOfUser(r, id) == IndexOfUser(users, id)
    ensures forall j :: 0 <= j < |users| && IndexOfUser(users, id) != Some(j) ==> r[j] == users[j]
    ensures IndexOfUser(users, id).None? ==> r == users
    ensures forall j :: 0 <= j < |users| ==> r[j] == users[j].(qualities := r[j].qualities)
  {
    var r := UpdateUserQualities(users, id, MergeAssessments(StoredQualities(users, id), drafts));
    IndexOfUserStable(users, r, id);
    r
  }

  /** After storing, the user's list is the merge of what was there and the
      drafts: every draft is found, and every quality the drafts do not
      mention is found as before. */
  lemma {:induction false} StoreLatestContents(users: seq<User>, id: string, drafts: seq<Assessment>, q: QualityType)
    requires IndexOfUser(users, id).Some?
    requires DistinctQualityIds(drafts)
    ensures forall d :: d in drafts ==> FindAssessment(StoredQualities(StoreLatest(users, id, drafts), id), d.qualityId) == Some(d)
    ensures q !in Ids(drafts) ==>
      FindAssessment(StoredQualities(StoreLatest(users, id, drafts), id), q) == FindAssessment(StoredQualities(users, id), q)
  {
    var before := StoredQualities(users, id);
    MergeStoresEveryDraft(before, drafts);
    if q !in Ids(drafts) {
      MergeKeepsUntouched(before, drafts, q);
    }
  }

  /** The merge as written: the drafts go into the list `bound` carried when
      the store was loaded, whatever the store holds now. */
  function StoreAsWritten(users: seq<User>, bound: User, drafts: seq<Assessment>): (r: seq<User>)
    ensures |r| == |users|
    ensures IndexOfUser(r, bound.id) == IndexOfUser(users, bound.id)
    ensures forall j :: 0 <= j < |users| && IndexOfUser(users, bound.id) != Some(j) ==> r[j] == users[j]
    ensures forall j :: 0 <= j < |users| ==> r[j] == users[j].(qualities := r[j].qualities)
  {
    var r := UpdateUserQualities(users, bound.id, MergeAssessments(QualitiesOf(bound), drafts));
    IndexOfUserStable(users, r, bound.id);
    r
  }

  /** One form event applied in order, each seeing the state the previous
      one left behind. */
  function Step(w: World, id: string, e: FormEvent): World
  {
    match e
    case OnComplete(rating, motivation) => World(w.users, HandleComplete(w.session, rating, motivation))
    case OnSubmit => World(StoreLatest(w.users, id, w.session.assessments), FinishSubmit(BeginSubmit(w.session)))
  }

  function Run(w: World, id: string, events: seq<FormEvent>): World
    decreases |events|
  {
    if events == [] then w else Run(Step(w, id, events[0]), id, events[1..])
  }

  /** The primary button, with submission reading the drafts the answer was
      just saved into and the user's current stored list. */
  function PressPrimary(w: World, id: string, rating: RatingLevel, motivation: string): (r: World)
    ensures |r.users| == |w.users|
    ensures !IsLastQuality(w.session) ==> r.users == w.users && r.session == HandleComplete(w.session, rating, motivation)
    ensures IsLastQuality(w.session) ==>
      r.session.isComplete && !r.session.isSubmitting
      && r.session.assessments == UpdateAssessment(w.session, rating, motivation).assessments
      && r.users == StoreLatest(w.users, id, r.session.assessments)
    ensures r.session.selectedQualities == w.session.selectedQualities
    ensures IsLastQuality(w.session) ==> r.session.currentQualityIndex == w.session.currentQualityIndex
  {
    var events := HandleSubmit(IsLastQuality(w.session), rating, motivation);
    var w1 := Step(w, id, events[0]);
    assert Run(w, id, events) == Run(w1, id, events[1..]);
    if IsLastQuality(w.session) then
      assert events[1..] == [OnSubmit];
      var w2 := Step(w1, id, OnSubmit);
      assert Run(w1, id, [OnSubmit]) == Run(w2, id, [OnSubmit][1..]);
      assert [OnSubmit][1..] == [];
      Run(w, id, events)
    else
      assert events[1..] == [];
      Run(w, id, events)
  }

  /** One form event as the app applies it: `submitQuestionnaire` was
      created in the render before the click, so its deferred merge reads
      that render's drafts, and it merges into the list `bound` carried at
      load time. */
  function StepAsWritten(w: World, bound: User, rendered: QuestionnaireState, e: FormEvent): World
  {
    match e
    case OnComplete(rating, motivation) => World(w.users, HandleComplete(w.session, rating, motivation))
    case OnSubmit => World(StoreAsWritten(w.users, bound, rendered.assessments), FinishSubmit(BeginSubmit(w.session)))
  }

  function RunAsWritten(w: World, bound: User, rendered: QuestionnaireState, events: seq<FormEvent>): World
    decreases |events|
  {
    if events == [] then w
    else RunAsWritten(StepAsWritten(w, bound, rendered, events[0]), bound, rendered, events[1..])
  }

  /** The primary button as the app wires it. */
  function PressPrimaryAsWritten(w: World, bound: User, rating: RatingLevel, motivation: string): (r: World)
    ensures |r.users| == |w.users|
    ensures !IsLastQuality(w.session) ==> r.users == w.users && r.session == HandleComplete(w.session, rating, motivation)
    ensures IsLastQuality(w.session) ==>
      r.session.isComplete && !r.session.isSubmitting
      && r.users == StoreAsWritten(w.users, bound, w.session.assessments)
    ensures r.session.selectedQualities == w.session.selectedQualities
    ensures IsLastQuality(w.session) ==> r.session.currentQualityIndex == w.session.currentQualityIndex
    ensures r.session.assessments == UpdateAssessment(w.session, rating, motivation).assessments
  {
    var events := HandleSubmit(IsLastQuality(w.session), rating, motivation);
    var w1 := StepAsWritten(w, bound, w.session, events[0]);
    assert RunAsWritten(w, bound, w.session, events) == RunAsWritten(w1, bound, w.session, events[1..]);
    if IsLastQuality(w.session) then
      assert events[1..] == [OnSubmit];
      var w2 := StepAsWritten(w1, bound, w.session, OnSubmit);
      assert RunAsWritten(w1, bound, w.session, [OnSubmit]) == RunAsWritten(w2, bound, w.session, [OnSubmit][1..]);
      assert [OnSubmit][1..] == [];
      RunAsWritten(w, bound, w.session, events)
    else
      assert events[1..] == [];
      RunAsWritten(w, bound, w.session, events)
  }

  // ---------------------------------------------------------------------
  // Properties of the corrected submission
  // ---------------------------------------------------------------------

  /** Saving an answer changes ratings and motivations only, so drafts for
      distinct qualities stay distinct. */
  lemma UpdateKeepsDistinct(st: QuestionnaireState, rating: RatingLevel, motivation: string)
    requires DistinctQualityIds(st.assessments)
    ensures DistinctQualityIds(UpdateAssessment(st, rating, motivation).assessments)
  {
  }

  /** A selection without repeats yields drafts for distinct qualities. */
  lemma SelectionGivesDistinctDrafts(st: QuestionnaireState, qs: seq<QualityType>, today: string)
    requires Selection.NoDup(qs)
    ensures DistinctQualityIds(SelectQualities(st, qs, today).assessments)
  {
  }

  /** Submitting from the last quality stores exactly what was entered on
      that screen, and every draft of the session, for the signed-in user. */
  lemma {:induction false} SubmitStoresEnteredAnswer(w: World, id: string, rating: RatingLevel, motivation: string)
    requires IsLastQuality(w.session) && GetCurrentAssessment(w.session).Some?
    requires DistinctQualityIds(w.session.assessments)
    requires IndexOfUser(w.users, id).Some?
    ensures var r := PressPrimary(w, id, rating, motivation);
      var q := CurrentQuality(w.session).value;
      && FindAssessment(StoredQualities(r.users, id), q) == Some(GetCurrentAssessment(w.session).value.(rating := rating, motivation := motivation))
      && forall d :: d in r.session.assessments ==> FindAssessment(StoredQualities(r.users, id), d.qualityId) == Some(d)
  {
    var st := w.session;
    var updated := UpdateAssessment(st, rating, motivation);
    UpdateThenCurrent(st, rating, motivation);
    UpdateKeepsDistinct(st, rating, motivation);
    var a := GetCurrentAssessment(updated).value;
    assert a in updated.assessments;
    StoreLatestContents(w.users, id, updated.assessments, a.qualityId);
  }

  /** Submitting leaves every quality the session did not touch as the store
      had it. */
  lemma {:induction false} SubmitKeepsUntouched(w: World, id: string, rating: RatingLevel, motivation: string, q: QualityType)
    requires IsLastQuality(w.session)
    requires DistinctQualityIds(w.session.assessments)
    requires IndexOfUser(w.users, id).Some?
    requires q !in Ids(w.session.assessments)
    ensures FindAssessment(StoredQualities(PressPrimary(w, id, rating, motivation).users, id), q)
      == FindAssessment(StoredQualities(w.users, id), q)
  {
    var updated := UpdateAssessment(w.session, rating, motivation);
    UpdateKeepsDistinct(w.session, rating, motivation);
    assert Ids(updated.assessments) == Ids(w.session.assessments) by {
      forall x | x in Ids(w.session.assessments) ensures x in Ids(updated.assessments) {
        var b :| b in w.session.assessments && b.qualityId == x;
        var j :| 0 <= j < |w.session.assessments| && w.session.assessments[j] == b;
        assert updated.assessments[j] in updated.assessments;
      }
    }
    StoreLatestContents(w.users, id, updated.assessments, q);
  }

  /** Submissions accumulate: an answer stored by one session survives a
      later session that does not rate that quality. */
  lemma {:induction false} SubmissionsAccumulate(users: seq<User>, id: string, first: seq<Assessment>, second: seq<Assessment>, d: Assessment)
    requires IndexOfUser(users, id).Some?
    requires DistinctQualityIds(first) && DistinctQualityIds(second)
    requires d in first && d.qualityId !in Ids(second)
    ensures FindAssessment(StoredQualities(StoreLatest(StoreLatest(users, id, first), id, second), id), d.qualityId) == Some(d)
  {
    var mid := StoreLatest(users, id, first);
    StoreLatestContents(users, id, first, d.qualityId);
    StoreLatestContents(mid, id, second, d.qualityId);
  }

  // ---------------------------------------------------------------------
  // The two divergences of the app as written
  // ---------------------------------------------------------------------

  const Today: string := "2024-06-01"
  const Entered: string := "I weigh options carefully before acting."

  /** A session rating only "decisionMaking", on its (first and last)
      quality. */
  function OneQualitySession(): QuestionnaireState
  {
    SelectQualities(InitialState, [DecisionMaking], Today)
  }

  lemma EnteredIsAccepted()
    ensures !IsSubmitDisabled(Entered)
  {
    PlainTextOfTenAccepted(Entered);
  }

  /** The first seeded user has no "decisionMaking" assessment. */
  lemma SeedUserLacksDecisionMaking()
    ensures FindAssessment(QualitiesOf(CurrentUser), DecisionMaking).None?
  {
  }

  /** As written, pressing "Submit Assessment" stores the drafts of the
      render before the press: the answer on the screen is not among them. */
  lemma {:induction false} AsWrittenStoresRenderedDrafts(w: World, bound: User, rating: RatingLevel, motivation: string, k: nat)
    requires IsLastQuality(w.session)
    requires DistinctQualityIds(w.session.assessments)
    requires IndexOfUser(w.users, bound.id) == Some(k)
    ensures var r := PressPrimaryAsWritten(w, bound, rating, motivation);
      && k < |r.users|
      && forall d :: d in w.session.assessments ==> FindAssessment(QualitiesOf(r.users[k]), d.qualityId) == Some(d)
  {
    MergeStoresEveryDraft(QualitiesOf(bound), w.session.assessments);
  }

  lemma CurrentUserFirst()
    ensures IndexOfUser(SeedUsers, CurrentUser.id) == Some(0)
  {
  }

  lemma OneQualitySessionShape()
    ensures OneQualitySession().assessments == [NewDraft(DecisionMaking, Today)]
    ensures IsLastQuality(OneQualitySession())
    ensures GetCurrentAssessment(OneQualitySession()) == Some(NewDraft(DecisionMaking, Today))
  {
    SelectThenCurrent(InitialState, [DecisionMaking], Today);
  }

  /** As written, rating the last quality 5 with an accepted motivation and
      pressing "Submit Assessment" stores the untouched draft instead:
      rating 3 and no motivation. */
  lemma {:induction false} StaleDraftsLoseLastAnswer()
    ensures !IsSubmitDisabled(Entered)
    ensures var r := PressPrimaryAsWritten(World(SeedUsers, OneQualitySession()), CurrentUser, 5, Entered);
      0 < |r.users| && FindAssessment(QualitiesOf(r.users[0]), DecisionMaking) == Some(NewDraft(DecisionMaking, Today))
  {
    EnteredIsAccepted();
    OneQualitySessionShape();
    CurrentUserFirst();
    StoresOnlyDraft(World(SeedUsers, OneQualitySession()), CurrentUser, 5, Entered, NewDraft(DecisionMaking, Today));
  }

  /** As written, a one-draft session on its last quality stores that
      draft, whatever was entered. */
  lemma StoresOnlyDraft(w: World, bound: User, rating: RatingLevel, motivation: string, d: Assessment)
    requires IsLastQuality(w.session) && w.session.assessments == [d]
    requires IndexOfUser(w.users, bound.id) == Some(0)
    ensures var r := PressPrimaryAsWritten(w, bound, rating, motivation);
      0 < |r.users| && FindAssessment(QualitiesOf(r.users[0]), d.qualityId) == Some(d)
  {
    AsWrittenStoresRenderedDrafts(w, bound, rating, motivation, 0);
    assert d in w.session.assessments;
  }

  /** The corrected press on the same input stores what was entered. */
  lemma {:induction false} CorrectedKeepsLastAnswer()
    ensures var r := PressPrimary(World(SeedUsers, OneQualitySession()), CurrentUser.id, 5, Entered);
      FindAssessment(StoredQualities(r.users, CurrentUser.id), DecisionMaking)
        == Some(NewDraft(DecisionMaking, Today).(rating := 5, motivation := Entered))
  {
    var st := OneQualitySession();
    OneQualitySessionShape();
    CurrentUserFirst();
    SelectionGivesDistinctDrafts(InitialState, [DecisionMaking], Today);
    SubmitStoresEnteredAnswer(World(SeedUsers, st), CurrentUser.id, 5, Entered);
  }

  const FirstDrafts: seq<Assessment> := [Assessment(DecisionMaking, 5, Entered, Today)]
  const SecondDrafts: seq<Assessment> := [Assessment(Adaptability, 4, "I adjust quickly to new tools.", Today)]

  /** As written, a second submission in the same run merges into the list
      loaded at start-up, so the first submission's new quality is gone. */
  lemma {:induction false} SecondSubmissionDropsFirst()
    ensures var users := StoreAsWritten(StoreAsWritten(SeedUsers, CurrentUser, FirstDrafts), CurrentUser, SecondDrafts);
      FindAssessment(QualitiesOf(users[0]), DecisionMaking).None?
  {
    var mid := StoreAsWritten(SeedUsers, CurrentUser, FirstDrafts);
    assert IndexOfUser(SeedUsers, CurrentUser.id) == Some(0);
    assert IndexOfUser(mid, CurrentUser.id) == Some(0);
    MergeKeepsUntouched(QualitiesOf(CurrentUser), SecondDrafts, DecisionMaking);
    SeedUserLacksDecisionMaking();
  }

  /** The corrected store keeps it. */
  lemma {:induction false} CorrectedKeepsFirst()
    ensures var users := StoreLatest(StoreLatest(SeedUsers, CurrentUser.id, FirstDrafts), CurrentUser.id, SecondDrafts);
      FindAssessment(StoredQualities(users, CurrentUser.id), DecisionMaking) == Some(FirstDrafts[0])
  {
    assert IndexOfUser(SeedUsers, CurrentUser.id) == Some(0);
    assert FirstDrafts[0] in FirstDrafts;
    SubmissionsAccumulate(SeedUsers, CurrentUser.id, FirstDrafts, SecondDrafts, FirstDrafts[0]);
  }
}

=== FILE: sums.dfy ===
/** Weighted sums over sequences: the one fold that every count, total and
    member tally of the app is an instance of. */
module Sums {

  /** The sum of `f` over the elements of `xs`, front to back. */
  function Sum<T>(xs: seq<T>, f: T -> int): int
  {
    if xs == [] then 0 else f(xs[0]) + Sum(xs[1..], f)
  }

  lemma {:induction false} SumAppend<T>(xs: seq<T>, ys: seq<T>, f: T -> int)
    ensures Sum(xs + ys, f) == Sum(xs, f) + Sum(ys, f)
  {
    if xs == [] {
      assert xs + ys == ys;
    } else {
      assert (xs + ys)[1..] == xs[1..] + ys;
      SumAppend(xs[1..], ys, f);
    }
  }

  /** Taking element `i` out of `ys` removes one copy of it from the multiset. */
  lemma MultisetRemoveAt<T>(ys: seq<T>, i: nat)
    requires i < |ys|
    ensures multiset(ys) == multiset(ys[..i] + ys[i + 1..]) + multiset{ys[i]}
  {
    assert ys == ys[..i] + [ys[i]] + ys[i + 1..];
  }

  /** Sum over `ys` split around position `i`. */
  lemma SumRemoveAt<T>(ys: seq<T>, i: nat, f: T -> int)
    requires i < |ys|
    ensures Sum(ys, f) == f(ys[i]) + Sum(ys[..i] + ys[i + 1..], f)
  {
    assert ys == ys[..i] + ([ys[i]] + ys[i + 1..]);
    SumAppend(ys[..i], [ys[i]] + ys[i + 1..], f);
    SumAppend([ys[i]], ys[i + 1..], f);
    SumAppend(ys[..i], ys[i + 1..], f);
    assert Sum([ys[i]], f) == f(ys[i]);
  }

  /** Matching the head of `xs` with an equal element of `ys` leaves
      equal multisets behind. */
  lemma MultisetCancelHead<T>(xs: seq<T>, ys: seq<T>, i: nat)
    requires multiset(xs) == multiset(ys)
    requires xs != [] && i < |ys| && ys[i] == xs[0]
    ensures multiset(xs[1..]) == multiset(ys[..i] + ys[i + 1..])
  {
    var x := xs[0];
    var a := multiset(xs[1..]);
    var b := multiset(ys[..i] + ys[i + 1..]);
    assert xs == [x] + xs[1..];
    assert multiset(xs) == multiset{x} + a;
    MultisetRemoveAt(ys, i);
    assert a + multiset{x} == b + multiset{x};
    forall e
      ensures a[e] == b[e]
    {
      assert (a + multiset{x})[e] == (b + multiset{x})[e];
    }
  }

  /** A sum does not depend on the order of its elements. */
  lemma {:induction false} SumPermutation<T>(xs: seq<T>, ys: seq<T>, f: T -> int)
    requires multiset(xs) == multiset(ys)
    ensures Sum(xs, f) == Sum(ys, f)
  {
    if xs == [] {
      assert |ys| == |multiset(ys)| == 0;
    } else {
      assert xs[0] in multiset(ys);
      var i :| 0 <= i < |ys| && ys[i] == xs[0];
      MultisetCancelHead(xs, ys, i);
      SumPermutation(xs[1..], ys[..i] + ys[i + 1..], f);
      SumRemoveAt(ys, i, f);
    }
  }

  /** Sums of pointwise-equal weights over equally long sequences agree. */
  lemma {:induction false} SumPointwise<T, U>(xs: seq<T>, f: T -> int, ys: seq<U>, g: U -> int)
    requires |xs| == |ys|
    requires forall i :: 0 <= i < |xs| ==> f(xs[i]) == g(ys[i])
    ensures Sum(xs, f) == Sum(ys, g)
  {
    if xs != [] {
      assert f(xs[0]) == g(ys[0]);
      SumPointwise(xs[1..], f, ys[1..], g);
    }
  }

  /** If every element's `t`-weight lies between `lo` and `hi` times its
      `c`-weight, the same holds of the sums. */
  lemma {:induction false} SumBounds<T>(xs: seq<T>, c: T -> int, t: T -> int, lo: int, hi: int)
    requires forall i :: 0 <= i < |xs| ==> lo * c(xs[i]) <= t(xs[i]) <= hi * c(xs[i])
    ensures lo * Sum(xs, c) <= Sum(xs, t) <= hi * Sum(xs, c)
  {
    if xs != [] {
      assert lo * c(xs[0]) <= t(xs[0]) <= hi * c(xs[0]);
      SumBounds(xs[1..], c, t, lo, hi);
      assert lo * Sum(xs, c) == lo * c(xs[0]) + lo * Sum(xs[1..], c);
      assert hi * Sum(xs, c) == hi * c(xs[0]) + hi * Sum(xs[1..], c);
    }
  }

  /** A sum of non-negative weights is non-negative. */
  lemma {:induction false} SumNonNegative<T>(xs: seq<T>, f: T -> int)
    requires forall i :: 0 <= i < |xs| ==> 0 <= f(xs[i])
    ensures 0 <= Sum(xs, f)
  {
    if xs != [] {
      assert 0 <= f(xs[0]);
      SumNonNegative(xs[1..], f);
    }
  }
}

=== FILE: text.dfy ===
/** The few string primitives the app leans on: decimal rendering of counts
    in template strings, `String.prototype.trim`, and `.length`, which in
    JavaScript counts UTF-16 code units rather than characters. */
module Text {

  /** The characters `trim` strips: ECMAScript WhiteSpace (tab, vertical tab,
      form feed, the byte-order mark and every space separator) and
      LineTerminator (LF, CR, line and paragraph separators). */
  predicate IsWhiteSpace(c: char)
  {
    || c == '\t' || c == '\n' || c == '\U{000B}' || c == '\U{000C}' || c == '\r'
    || c == ' ' || c == '\U{00A0}' || c == '\U{1680}'
    || ('\U{2000}' <= c <= '\U{200A}')
    || c == '\U{2028}' || c == '\U{2029}' || c == '\U{202F}' || c == '\U{205F}'
    || c == '\U{3000}' || c == '\U{FEFF}'
  }

  /** `s` without its leading white space. */
  function TrimStart(s: string): (r: string)
    ensures |r| <= |s| && r == s[|s| - |r|..]
    ensures forall k :: 0 <= k < |s| - |r| ==> IsWhiteSpace(s[k])
    ensures r != [] ==> !IsWhiteSpace(r[0])
  {
    if s != [] && IsWhiteSpace(s[0]) then TrimStart(s[1..]) else s
  }

  /** `s` without its trailing white space. */
  function TrimEnd(s: string): (r: string)
    ensures |r| <= |s| && r == s[..|r|]
    ensures forall k :: |r| <= k < |s| ==> IsWhiteSpace(s[k])
    ensures r != [] ==> !IsWhiteSpace(r[|r| - 1])
  {
    if s != [] && IsWhiteSpace(s[|s| - 1]) then TrimEnd(s[..|s| - 1]) else s
  }

  /** Where the trimmed text starts inside `s`. */
  function TrimOffset(s: string): nat
  {
    |s| - |TrimStart(s)|
  }

  /** JavaScript's `s.trim()`: the slice of `s` left once white space is
      stripped from both ends. */
  function Trim(s: string): (r: string)
    ensures TrimOffset(s) + |r| <= |s|
    ensures r == s[TrimOffset(s)..TrimOffset(s) + |r|]
    ensures forall k :: 0 <= k < TrimOffset(s) ==> IsWhiteSpace(s[k])
    ensures forall k :: TrimOffset(s) + |r| <= k < |s| ==> IsWhiteSpace(s[k])
    ensures r != [] ==> !IsWhiteSpace(r[0]) && !IsWhiteSpace(r[|r| - 1])
  {
    var t := TrimStart(s);
    var r := TrimEnd(t);
    TrimEndOfSuffix(s, t, r);
    r
  }

  /** White space at the end of a suffix of `s` is white space at the end
      of `s`. */
  lemma TrimEndOfSuffix(s: string, t: string, r: string)
    requires |t| <= |s| && t == s[|s| - |t|..]
    requires |r| <= |t| && forall k :: |r| <= k < |t| ==> IsWhiteSpace(t[k])
    ensures forall k :: |s| - |t| + |r| <= k < |s| ==> IsWhiteSpace(s[k])
  {
    forall k | |s| - |t| + |r| <= k < |s|
      ensures IsWhiteSpace(s[k])
    {
      assert s[k] == t[k - (|s| - |t|)];
    }
  }

  /** JavaScript's `s.length`: characters beyond the Basic Multilingual
      Plane take two UTF-16 code units. */
  function Utf16Length(s: string): (n: nat)
    ensures |s| <= n <= 2 * |s|
    ensures (forall k :: 0 <= k < |s| ==> s[k] as int <= 0xFFFF) ==> n == |s|
    ensures (forall k :: 0 <= k < |s| ==> s[k] as int > 0xFFFF) ==> n == 2 * |s|
  {
    if s == [] then 0
    else (if s[0] as int > 0xFFFF then 2 else 1) + Utf16Length(s[1..])
  }

  /** UTF-16 length adds up over concatenation. */
  lemma {:induction false} Utf16LengthAppend(a: string, b: string)
    ensures Utf16Length(a + b) == Utf16Length(a) + Utf16Length(b)
  {
    if a == [] {
      assert a + b == b;
    } else {
      assert (a + b)[1..] == a[1..] + b;
      Utf16LengthAppend(a[1..], b);
    }
  }

  /** Trimming never lengthens a string, in UTF-16 units as in characters. */
  lemma TrimShortens(s: string)
    ensures Utf16Length(Trim(s)) <= Utf16Length(s)
  {
    var o := TrimOffset(s);
    var r := Trim(s);
    assert s == s[..o] + (r + s[o + |r|..]);
    Utf16LengthAppend(s[..o], r + s[o + |r|..]);
    Utf16LengthAppend(r, s[o + |r|..]);
  }

  /** A string that neither starts nor ends with white space is its own
      trim. */
  lemma TrimOfTrimmed(s: string)
    requires s != [] && !IsWhiteSpace(s[0]) && !IsWhiteSpace(s[|s| - 1])
    ensures Trim(s) == s
  {
    var r := Trim(s);
    assert TrimOffset(s) == 0;
    assert |r| == |s|;
  }

  /** Nothing is left of a string made only of white space. */
  lemma AllWhiteSpaceTrimsToEmpty(s: string)
    requires forall k :: 0 <= k < |s| ==> IsWhiteSpace(s[k])
    ensures Trim(s) == []
  {
    if Trim(s) != [] {
      assert false;
    }
  }

  function DigitChar(d: nat): (c: char)
    requires d < 10
  {
    "0123456789"[d]
  }

  function DigitValue(c: char): nat
  {
    if '0' <= c <= '9' then c as int - '0' as int else 0
  }

  predicate IsDigit(c: char)
  {
    '0' <= c <= '9'
  }

  /** The decimal rendering `${n}` of a non-negative integer. */
  function NatToString(n: nat): (s: string)
    ensures s != []
    ensures forall k :: 0 <= k < |s| ==> IsDigit(s[k])
    ensures s[0] == '0' ==> n == 0 && |s| == 1
    decreases n
  {
    if n < 10 then [DigitChar(n)] else NatToString(n / 10) + [DigitChar(n % 10)]
  }

  /** Reads a string of decimal digits back as a number. */
  function ParseDecimal(s: string): nat
  {
    if s == [] then 0 else 10 * ParseDecimal(s[..|s| - 1]) + DigitValue(s[|s| - 1])
  }

  /** The decimal rendering is read back as the same number, so distinct
      counts give distinct strings. */
  lemma {:induction false} ParseNatToString(n: nat)
    ensures ParseDecimal(NatToString(n)) == n
    decreases n
  {
    var s := NatToString(n);
    if n < 10 {
      assert s[..|s| - 1] == [];
    } else {
      assert s[..|s| - 1] == NatToString(n / 10);
      ParseNatToString(n / 10);
    }
  }

  lemma NatToStringInjective(m: nat, n: nat)
    requires NatToString(m) == NatToString(n)
    ensures m == n
  {
    ParseNatToString(m);
    ParseNatToString(n);
  }
}

=== FILE: types.dfy ===
/** The entities of the self-assessment app: the closed set of quality tags,
    the 1..5 rating scale, assessments, users, teams, the company and the
    state of one questionnaire session. */
module Types {

  datatype Option<+T> = None | Some(value: T)

  /** The eight assessable qualities; a closed enumeration. */
  datatype QualityType =
    | Leadership
    | DecisionMaking
    | Teamwork
    | Creativity
    | Communication
    | ProblemSolving
    | Adaptability
    | TimeManagement

  /** The wire tag of a quality, as the app spells it in string ids. */
  function TagName(q: QualityType): string
  {
    match q
    case Leadership => "leadership"
    case DecisionMaking => "decisionMaking"
    case Teamwork => "teamwork"
    case Creativity => "creativity"
    case Communication => "communication"
    case ProblemSolving => "problemSolving"
    case Adaptability => "adaptability"
    case TimeManagement => "timeManagement"
  }

  /** A self-rating: exactly the integers 1..5. */
  type RatingLevel = r: int | 1 <= r <= 5 witness 3

  /** The rating every fresh draft starts with. */
  const DefaultRating: RatingLevel := 3

  datatype Quality = Quality(id: QualityType, name: string, description: string)

  datatype Assessment = Assessment(
    qualityId: QualityType,
    rating: RatingLevel,
    motivation: string,
    date: string)

  /** `qualities` is optional on a user; every reader treats absence as []. */
  datatype User = User(
    id: string,
    name: string,
    position: string,
    avatarUrl: string,
    teamId: string,
    qualities: Option<seq<Assessment>>)

  datatype Team = Team(
    id: string,
    name: string,
    description: string,
    companyId: string,
    members: seq<User>)

  datatype Company = Company(id: string, name: string, teams: seq<Team>)

  datatype QuestionnaireState = QuestionnaireState(
    selectedQualities: seq<QualityType>,
    currentQualityIndex: nat,
    assessments: seq<Assessment>,
    isSubmitting: bool,
    isComplete: bool)

  /** The assessments a user carries, with a missing list read as empty. */
  function QualitiesOf(u: User): seq<Assessment>
  {
    match u.qualities
    case None => []
    case Some(qs) => qs
  }

  /** No two assessments in `qs` are for the same quality. */
  ghost predicate DistinctQualityIds(qs: seq<Assessment>)
  {
    forall i, j :: 0 <= i < j < |qs| ==> qs[i].qualityId != qs[j].qualityId
  }
}
